=== FILE: README.md ===
# rpm package signature checking and public-key import, in Dafny

This project models the signature and digest checker of rpm 4.14
(`lib/rpmchecksig.c`). It covers these parts:

- **Package verification** (`rpmpkgVerifySignatures`). A package is read in
  phases: lead, signature header, main header, payload. Before each part of
  the package is read, digest accumulators are attached to the stream
  (`initDigests`). After the part is read, every signature item whose range
  matches the phase is checked against a copy of its accumulator
  (`verifyItems`). The phases are header-only, payload-only, and header plus
  payload.
- **Item enablement** (`sinfoDisabled`). An item is skipped when it has no
  hash algorithm, when one of its disabler bits is set in the verify flags,
  or when the flags ask for header-only checking and the item covers the
  payload.
- **Reporting callbacks** (`formatVerbose`, `formatDefault`). The summary
  formatter prints a short name per tag: upper case on failure, lower case
  on success, and in parentheses for a missing key.
- **Drivers**. `rpmpkgVerifySigs` and `rpmVerifySignatures` verify one
  package. `rpmcliVerifySignatures` verifies a list of packages and counts
  the failures.
- **Public-key import** (`doImport`, `rpmcliImportPubkeys`). An argument
  that looks like a key id is redirected through the key-server query
  macro. The file is read whole, and every `-----BEGIN PGP ` block in it is
  parsed. The certificates of every public-key packet are offered to the
  keyring one at a time, and every failure is counted.

The modules follow that structure:

- `RpmTypes`: return codes, verify flags, tags, signature items and
  callbacks.
- `DigestStream`: the digest multiplexer of an open stream, modelled as a
  map from digest id to the bytes that accumulator has seen.
- `Enablement`: `sinfoDisabled`.
- `Pipeline`: `readFile`, `initDigests`, `verifyItems` and
  `rpmpkgVerifySignatures`.
- `Formatters`: the two callbacks.
- `Batch`: the three drivers.
- `ArmorScan`: the marker search of `doImport`.
- `KeyImport`: certificate import, per-file and per-argument import, and
  key-id resolution.

Everything the checker delegates is a parameter of the model:

- cryptographic verification, as a `Checker` function;
- parsing the lead and the header blobs, as `Step` values in a `Package`;
- the chunks that `Fread` returns;
- the OpenPGP armor parser and certificate splitter;
- the keyring's acceptance test;
- macro expansion;
- whole-file reading.

## Model

| member | source | states |
|---|---|---|
| RpmTypes.Effective | lib/rpmchecksig.c:244-245 | With a callback, the effective result is the callback's answer. A callback that passes results through, or no callback, leaves the raw result. |
| RpmTypes.Code | lib/rpmchecksig.c:339-347 | The integer an rpmRC becomes is 0 exactly for OK, 2 for FAIL, and lies in 0..4. |
| DigestStream.Attach | lib/rpmchecksig.c:210-211 | Attaching an accumulator adds its id. It keeps every existing accumulator, and a new one starts empty. |
| DigestStream.Feed | lib/rpmchecksig.c:299-301 | A read sends the block to every attached accumulator and attaches or detaches nothing. |
| DigestStream.Snapshot | lib/rpmchecksig.c:239 | A digest copy exists exactly when the id is attached, and it holds what that accumulator has seen. |
| DigestStream.Detach | lib/rpmchecksig.c:242 | Finishing a digest drops exactly that id and leaves the other accumulators alone. |
| DigestStream.AttachKeepsCoherent | lib/rpmchecksig.c:196-215 | Attaching keeps the invariant that every accumulator holds a suffix of the bytes read so far. |
| DigestStream.FeedKeepsCoherent | lib/rpmchecksig.c:299-301 | Reading a block keeps that invariant, with the block appended to the bytes read. |
| DigestStream.DetachKeepsCoherent | lib/rpmchecksig.c:242 | Finishing a digest keeps that invariant. |
| DigestStream.FeedTwice | lib/rpmchecksig.c:122-134 | Two consecutive reads feed the accumulators the same as one read of both blocks, so the chunk size does not matter. |
| DigestStream.FeedNothing | lib/rpmchecksig.c:122-134 | An empty read changes no accumulator. |
| Enablement.Disabled | lib/rpmchecksig.c:185-194 | The model of sinfoDisabled: the three early returns in their order. Its properties are the lemmas that follow. |
| Enablement.DisabledLooksOnlyAtItsBits | lib/rpmchecksig.c:185-194 | Only the item's own disabler bits and NEEDPAYLOAD matter: clearing every other flag bit never changes the answer. |
| Enablement.SameBitsSameAnswer | lib/rpmchecksig.c:189-192 | Two flag words that agree on the item's disabler bits and on NEEDPAYLOAD disable the same items. |
| Enablement.MoreFlagsDisableMore | lib/rpmchecksig.c:185-194 | Setting more flag bits never re-enables a disabled item. |
| Enablement.NeedPayloadKeepsOnlyHeaderItems | lib/rpmchecksig.c:191-192 | With NEEDPAYLOAD as the only flag, an item that has a hash algorithm and whose disabler lacks the NEEDPAYLOAD bit stays enabled exactly when its range excludes the payload. |
| Enablement.NoFlagsDisablesOnlyMissingAlgorithms | lib/rpmchecksig.c:187-188 | With no flags, exactly the items without a hash algorithm are disabled. |
| Pipeline.StopAt | lib/rpmchecksig.c:129 | The read loop consumes exactly the leading chunks with a positive count and stops at the first non-positive one. |
| Pipeline.ReadFile | lib/rpmchecksig.c:123-134 | The stream is fed the concatenation of the chunks read. Failure happens exactly when the last count is negative, and then the message carries the read error. End of file succeeds without a message. |
| Pipeline.InitDigests | lib/rpmchecksig.c:196-215 | Exactly the items that initialised, are enabled and overlap the phase's range get an accumulator. The accumulators already attached are kept. |
| Pipeline.Checked | lib/rpmchecksig.c:235-238 | The items a phase checks are the items that are enabled, initialised and whose range equals the phase. |
| Pipeline.CheckItem | lib/rpmchecksig.c:238-246 | A checked item is verified against the snapshot of its own accumulator. The callback's answer replaces the raw result. |
| Pipeline.VerifyItems | lib/rpmchecksig.c:217-256 | Every report is about a checked item. Exactly the checked items' accumulators are finished, and the rest of the stream is untouched. |
| Pipeline.VerifyItemsReportsChecked | lib/rpmchecksig.c:227-250 | The reports come in header order, one per checked item and no others. |
| Pipeline.VerifyItemsFails | lib/rpmchecksig.c:232-249 | A phase fails exactly when an enabled item failed to initialise or a checked item's effective result is not OK. Both directions are proved. |
| Pipeline.VerifyItemsSnapshots | lib/rpmchecksig.c:239-242 | With distinct ids, each checked item sees the accumulator state from before the phase started. |
| Pipeline.SameIdSameEntry | lib/rpmchecksig.c:239-242 | Under distinct ids, an id names a single item. |
| Pipeline.SharedIdLeavesSecondWithoutSnapshot | lib/rpmchecksig.c:239-242 | When two checked items share an id, the second finds its accumulator already finished and gets no digest. |
| Pipeline.PassThroughPhase | lib/rpmchecksig.c:244-249 | A callback that returns the result it is given does not change whether a phase fails, nor the stream. |
| Pipeline.VerifyPackage | lib/rpmchecksig.c:258-321 | The verdict is OK or FAIL. It is OK exactly when every step completes, every enabled item initialised and every checked item's effective result is OK. An aborted package logs its step's message, and a complete one logs nothing. Every report is the checker's result on its item's digest, with the callback's answer as its effective result. A complete package reports exactly the items the header, payload and combined phases check, in that order. |
| Pipeline.CompleteVerdict | lib/rpmchecksig.c:289-310 | For a package whose every step succeeded, the verdict is OK exactly when every enabled item initialised and every report is effectively OK. Nothing is logged. Every report is the checker's result on its item's digest, with the callback's answer as its effective result. The reports are exactly the three phases' checked items, in order. |
| Pipeline.ThreePhasesFail | lib/rpmchecksig.c:289-309 | The three verifyItems calls, run in turn, all succeed exactly when every enabled item initialised and every item they report is effectively OK. |
| Pipeline.ThreePhasesReport | lib/rpmchecksig.c:289-307 | The three verifyItems calls report the header-range, payload-range and combined-range checked items, in that order. |
| Pipeline.Finish | lib/rpmchecksig.c:312-320 | The exit keeps the rc and the reports. It logs a message exactly when the rc is not OK and a message was left, and then it logs that message. |
| Pipeline.HeaderPhaseDigests | lib/rpmchecksig.c:281-289 | With distinct ids, header-range items are checked against exactly the header bytes. |
| Pipeline.HeaderPhaseLeaves | lib/rpmchecksig.c:281-289 | With distinct ids, after the header phase, the combined-range accumulators have seen exactly the header bytes. |
| Pipeline.PayloadPhaseDigests | lib/rpmchecksig.c:296-305 | With distinct ids, payload-range items, including copied tags, are checked against exactly the payload bytes. |
| Pipeline.CombinedPhaseDigests | lib/rpmchecksig.c:306-307 | With distinct ids, combined-range items of the signature header are checked against the header bytes followed by the payload bytes. |
| Pipeline.CopiedCombinedDigests | lib/rpmchecksig.c:291-307 | With distinct ids, a combined-range item copied in from the main header is checked against the payload bytes alone, because its accumulator is attached after the header is read. rpm copies only the payload digest (line 268), so this case does not arise with rpm's own tags. |
| Pipeline.RangeDigests | lib/rpmchecksig.c:258-311 | For a complete package with distinct ids, a header item's digest covers the header bytes and a payload item's the payload bytes. A combined item of the signature header covers the header followed by the payload; a combined item copied from the main header covers the payload only. |
| Pipeline.InitDigestsKeepsCoherent | lib/rpmchecksig.c:196-215 | Attaching the phase's accumulators keeps every accumulator a suffix of the bytes read. |
| Pipeline.VerifyItemsKeepsCoherent | lib/rpmchecksig.c:217-256 | Finishing the checked items' accumulators keeps the others a suffix of the bytes read. |
| Pipeline.VerifyItemsDigestsSeen | lib/rpmchecksig.c:238-242 | Whatever the ids, a digest handed to the checker is what an accumulator attached at the start of the phase holds. |
| Pipeline.DigestsAreSuffixesOfWhatWasRead | lib/rpmchecksig.c:258-311 | Whatever the ids, every digest handed to the checker holds only bytes read while its accumulator was attached: a suffix of the header in the header phase, and of the header followed by the payload after it. |
| Pipeline.NoEntriesVerifies | lib/rpmchecksig.c:309-310 | A complete package without signature items verifies. |
| Pipeline.AllDisabledVerifies | lib/rpmchecksig.c:232-236 | A complete package whose items are all disabled verifies, even when some failed to initialise. |
| Pipeline.PassThroughVerdict | lib/rpmchecksig.c:244-245 | A pass-through callback gives the same verdict as no callback. |
| Formatters.FormatVerbose | lib/rpmchecksig.c:136-140 | The result is passed through unchanged. The line is four spaces, the result text and a newline. |
| Formatters.Abbrev | lib/rpmchecksig.c:148-176 | The table of known tags and their lower-case names; PGP5 and PGP share "pgp". AbbrevIsLowerCase and Pgp5ShownAsPgp state its properties. |
| Formatters.SigName | lib/rpmchecksig.c:148-180 | The shown name is the table name, upper-cased on failure, or a placeholder for an unknown tag. NameLowersToAbbrev states its relation to the table. |
| Formatters.FormatDefault | lib/rpmchecksig.c:143-183 | The result is passed through unchanged. The token is the name followed by a space, or, exactly for NOKEY, the name in parentheses followed by a space. For a known tag the name inside lower-cases to the tag's table name, and is that name itself on success. An unknown tag shows ??? on success and ?UnknownSigatureType? otherwise. |
| Formatters.NameLowersToAbbrev | lib/rpmchecksig.c:148-176 | Both spellings of a known tag's name lower-case to its table name. |
| Formatters.FormattersPassThrough | lib/rpmchecksig.c:139 | Both callbacks return the result they are given. |
| Formatters.AbbrevIsLowerCase | lib/rpmchecksig.c:148-176 | Every known tag's short name is lower case. |
| Formatters.FormatDefaultCase | lib/rpmchecksig.c:146-181 | For a known tag, the name is upper case exactly on failure and lower case on success. |
| Formatters.UpperNameLowersToLowerName | lib/rpmchecksig.c:148-176 | The upper-case and lower-case names of each known tag are the same word. |
| Formatters.Pgp5ShownAsPgp | lib/rpmchecksig.c:164-167 | The legacy PGP5 tag is shown as PGP. |
| Formatters.UpperNames | lib/rpmchecksig.c:149-176 | The failure spellings of all the known tags. |
| Batch.VerifySigs | lib/rpmchecksig.c:323-336 | The rc is that of verifying with no callback. Verbose output opens with the name on its own line. Summary output opens with the name and closes with NOT OK or OK to match the rc. |
| Batch.VerifySignaturesApi | lib/rpmchecksig.c:339-348 | The result is 1 exactly when an argument is missing, and 0 exactly when all are present and the package verifies. |
| Batch.CliFlags | lib/rpmchecksig.c:355-360 | The no-digest and no-signature masks are set exactly when their query flags are given, and no other bit is set. |
| Batch.OneFile | lib/rpmchecksig.c:363-370 | A package counts as failed exactly when it cannot be opened or does not verify. |
| Batch.VerifyBatch | lib/rpmchecksig.c:362-374 | The count is at most the number of packages. It is 0 exactly when none fails, and equal to the number of packages exactly when all fail. |
| Batch.CliVerifySignatures | lib/rpmchecksig.c:350-377 | The count is 0 exactly when every package opens and verifies under the derived flags. |
| Batch.VerifyBatchAdds | lib/rpmchecksig.c:362-374 | The failure counts of consecutive parts of the argument list add up. |
| Batch.VerbosityKeepsCount | lib/rpmchecksig.c:327-334 | Verbosity changes only the output, never the failure count. |
| ArmorScan.CString | lib/rpmchecksig.c:35 | The text searched is the buffer up to its first NUL. |
| ArmorScan.Find | lib/rpmchecksig.c:35 | The search finds the first marker at or after a position, or reports that there is none after it. |
| ArmorScan.NextStart | lib/rpmchecksig.c:72-76 | While the current marker ends inside the buffer, the next start is the first marker at or after its end. Otherwise there is no next start. |
| ArmorScan.MarksDoNotOverlap | lib/rpmchecksig.c:72-73 | Two marker occurrences never overlap, so skipping past one marker skips no other. |
| ArmorScan.Scan | lib/rpmchecksig.c:37-82 | The loop runs at least once. Only its first start can be missing, and the later starts are markers at strictly increasing positions. |
| ArmorScan.BlocksAreTheMarkers | lib/rpmchecksig.c:35-82 | The loop visits exactly the marker positions of the text, each once. |
| ArmorScan.NoMarkerOneBlock | lib/rpmchecksig.c:35-82 | Without a marker, the loop runs once with no start. |
| KeyImport.CertWalk | lib/rpmchecksig.c:48-61 | Splitting a packet yields non-empty pieces, never more pieces than bytes. |
| KeyImport.CertWalkCovers | lib/rpmchecksig.c:48-61 | The pieces are consecutive from the packet's front. They cover the whole packet unless the walk stopped at an unreadable length, which always leaves bytes unread. |
| KeyImport.ImportCert | lib/rpmchecksig.c:56-60 | An accepted certificate joins the keyring, and a refused one adds one failure for its key. |
| KeyImport.ImportCerts | lib/rpmchecksig.c:46-61 | The keyring and the failures only grow. Every new failure names the packet's key. Imports plus failures equal the pieces of the split plus one for an unreadable length. |
| KeyImport.ImportedCertsComeFromPacket | lib/rpmchecksig.c:56-60 | Every certificate the keyring gains is one of the packet's pieces. |
| KeyImport.ImportCertsAllAccepted | lib/rpmchecksig.c:46-61 | With a keyring that accepts everything, all certificates are added in order. The only failure left is an unreadable length. |
| KeyImport.ImportBlock | lib/rpmchecksig.c:44-66 | A block that is not an armored public key adds exactly one failure and leaves the keyring alone. Otherwise it produces its packet's outcomes. |
| KeyImport.ImportBlocks | lib/rpmchecksig.c:37-82 | Every failure names the file and a key number within the range of the blocks. Imports plus failures equal the work of all blocks. |
| KeyImport.BlocksLast | lib/rpmchecksig.c:37-82 | The loop over the first k + 1 blocks ends with block k imported as key number keyno + k. |
| KeyImport.BlockOutcomesNumbered | lib/rpmchecksig.c:78 | Block k is imported as key keyno + k on the state the earlier blocks left, whatever its outcome. What it adds stays in the result, and every failure it adds carries key number keyno + k. |
| KeyImport.DoImport | lib/rpmchecksig.c:29-83 | Every failure names the file and a key number between 1 and the number of blocks. Imports plus failures equal the work of all blocks. |
| KeyImport.NonKeyBlocksReported | lib/rpmchecksig.c:65-68 | Every block that is not an armored public key is reported under its own key number. |
| KeyImport.AllAcceptedFailuresAreParseFailures | lib/rpmchecksig.c:37-82 | With a keyring that accepts everything, the failures are exactly the non-key blocks and the unreadable certificate lengths. |
| KeyImport.DoImportNoMarker | lib/rpmchecksig.c:35-66 | Assuming the packet parser reports the missing text as something other than an armored public key, a buffer without a marker yields exactly one NotArmoredPubKey failure, for key 1, and no key. |
| KeyImport.HexRun | lib/rpmchecksig.c:98-100 | The count is the length of the leading run of hex digits. |
| KeyImport.LooksLikeKeyId | lib/rpmchecksig.c:96-101 | An argument is a key id when it starts with "0x" and the hex run after it has 8 or 16 digits. The partner lemma KeyIdIffRunLength states both directions. |
| KeyImport.KeyIdIffRunLength | lib/rpmchecksig.c:96-101 | An argument "0x" + hex digits + non-hex rest is taken for a key id exactly when there are 8 or 16 digits. |
| KeyImport.FileNamedByKeyIdLooksLikeKeyId | lib/rpmchecksig.c:96-101 | A file name such as 0xDEADBEEF.asc is also taken for a key id. |
| KeyImport.ResolveSource | lib/rpmchecksig.c:95-106 | A non-key-id argument is read as given. A key id is read from the key-server expansion when that is empty or does not start with '%', and as given when it does. |
| KeyImport.UndefinedKeyserverKeepsArg | lib/rpmchecksig.c:102-104 | For any expansion that keeps a leading '%' (an undefined macro comes back unexpanded), every argument is read as given. |
| KeyImport.DefinedKeyserverRedirects | lib/rpmchecksig.c:102-104 | For any expansion that does not start with '%', empty or not, a key id is read from the expansion. |
| KeyImport.ImportArg | lib/rpmchecksig.c:108-115 | A read that fails, is empty or has fewer than 64 bytes adds exactly one read failure and no key. Otherwise the outcome is doImport's on the bytes read: imports plus failures equal the work of its blocks, and every failure is a key failure of the resolved name. |
| KeyImport.ReadRejected | lib/rpmchecksig.c:110 | A read is refused when it returns an error, no buffer or fewer than 64 bytes. |
| KeyImport.ArgCount | lib/rpmchecksig.c:109-114 | The count an argument adds is the number of failures its import records: one for a refused read, else doImport's. |
| KeyImport.ImportPubkeys | lib/rpmchecksig.c:85-121 | The keyring only grows across the arguments. |
| KeyImport.RefusedReadsReported | lib/rpmchecksig.c:108-112 | Every argument whose read is refused appears among the failures, under its resolved name and the read's return code. |
| KeyImport.EachCountIsFailures | lib/rpmchecksig.c:87-118 | When each argument reports as many failures as it counts, the loop's failures are the sum of the counts. |
| KeyImport.EachCountZero | lib/rpmchecksig.c:87-118 | The sum is zero exactly when every argument counts zero on the keyring the arguments before it left. |
| KeyImport.CliImportPubkeys | lib/rpmchecksig.c:85-121 | The result adds one per refused read and doImport's count for every other argument, each on the keyring the earlier arguments left. It is 0 exactly when every argument counts 0, and a zero result means no read was refused. |
| KeyImport.ImportPubkeysAdds | lib/rpmchecksig.c:86-120 | Importing two argument lists in a row is importing their concatenation: the keyring is threaded through and the failures add up. |

## Left out

- Cryptographic verification (`rpmVerifySignature`) is the `Checker`
  parameter. The keyring it uses is not modelled.
- Parsing the lead and the signature and main header blobs is modelled as
  `Step` values. Each is either the parsed result or a failure with an
  optional message.
- `rpmsinfoInit` is modelled as entries that carry their init code and
  item. The tag-to-item table in `lib/signature.c` is not part of this model.
- `headerCopyTags` is modelled as appending the copied entries to the
  signature header's entries.
- The flag, range and tag constants follow rpm 4.14's `rpmts.h`,
  `rpmtag.h` and `signature.h`, which are not part of this model.
- The digest algorithms are not modelled. An accumulator is the byte
  sequence it has seen, and a digest "copy" is that sequence.
- `fdInitDigestID` on an id that is already attached is assumed to keep the
  existing accumulator.
- The stream starts with no accumulators attached, as a freshly opened
  package does.
- Pipeline.RangeDigests: assumes that the ids of all entries are distinct.
  `SharedIdLeavesSecondWithoutSnapshot` shows what happens when they are not.
- The 4*BUFSIZ read size is not modelled. Reads are given as chunks, and
  `FeedTwice` shows the chunk size is irrelevant to the digests.
- The text of `rpmlog` calls is not modelled beyond the structure:
  - the formatter lines;
  - the package name line;
  - the OK / NOT OK line;
  - the abort message.
  The "open failed" line of the batch driver and the texts of import
  failures are represented by counts and `ImportFailure` values.
- `Fdescr(fd)` is modelled as the package's file name.
- `rpmsqPoll`, the cancellation checkpoint between packages, is not
  modelled: the model assumes no signal arrives, so every argument is
  checked.
- `Fclose`, freeing and reference counting have no effect on results and
  are left out.
- `rpmtsImportPubkey` is modelled as an acceptance test on the current
  keyring. An accepted certificate is appended to it.
- `pgpParsePkts` is modelled as a function of the text from the block
  start. `pgpPubKeyCertLen` is modelled as a function that returns a
  positive length no longer than the packet, or none.
- `rpmioSlurp` and `rpmExpand` are parameters. `rpmExpand` is given the
  query macro followed by everything after the "0x", as one string. For
  `0xDEADBEEF.asc` that includes the ".asc".
- The model follows the code where it accepts an empty key-server
  expansion. The guard only rejects an expansion that starts with '%', so
  an empty expansion becomes the name that is read.
- The `_print_pkts` debug variable is not used by any modelled operation.

=== FILE: armor_scan.dfy ===
/** The marker search of doImport: the buffer is scanned, as a C string,
    for "-----BEGIN PGP ", each search starting strictly past the marker
    just handled. */
module ArmorScan {
  import opened RpmTypes

  const PgpMark: string := "-----BEGIN PGP "

  /** The buffer as strstr sees it: up to its first NUL (rpmioSlurp puts
      one after the last byte). */
  function CString(buf: seq<char>): (s: seq<char>)
    ensures |s| <= |buf| && s == buf[..|s|]
    ensures forall i :: 0 <= i < |s| ==> s[i] != '\0'
    ensures |s| < |buf| ==> buf[|s|] == '\0'
  {
    if |buf| == 0 || buf[0] == '\0' then [] else [buf[0]] + CString(buf[1..])
  }

  predicate IsMarkAt(s: seq<char>, i: int)
  {
    0 <= i && i + |PgpMark| <= |s| && s[i..i + |PgpMark|] == PgpMark
  }

  /** strstr(s + from, mark): the first marker at or after `from`. */
  function Find(s: seq<char>, from: nat): (r: Option<nat>)
    ensures r.Some? ==> from <= r.value && IsMarkAt(s, r.value)
    ensures r.Some? ==> forall j :: from <= j < r.value ==> !IsMarkAt(s, j)
    ensures r.None? ==> forall j :: from <= j ==> !IsMarkAt(s, j)
    decreases |s| - from
  {
    if from + |PgpMark| > |s| then None
    else if IsMarkAt(s, from) then Some(from)
    else Find(s, from + 1)
  }

  /** Two markers never overlap: the marker has no border. */
  lemma MarksDoNotOverlap(s: seq<char>, i: int, j: int)
    requires IsMarkAt(s, i) && IsMarkAt(s, j) && i < j
    ensures i + |PgpMark| <= j
  {
    if j < i + |PgpMark| {
      if j - i <= 4 {
        MarkCharAt(s, i, 5);
        MarkCharAt(s, j, 5 - (j - i));
      } else {
        MarkCharAt(s, i, j - i);
        MarkCharAt(s, j, 0);
      }
    }
  }

  lemma MarkCharAt(s: seq<char>, i: int, k: int)
    requires IsMarkAt(s, i) && 0 <= k < |PgpMark|
    ensures s[i + k] == PgpMark[k]
  {
    assert s[i..i + |PgpMark|][k] == s[i + k];
  }

  /** A scan position: a marker, or none (strstr found nothing). */
  predicate ValidStart(s: seq<char>, start: Option<nat>)
  {
    start.Some? ==> IsMarkAt(s, start.value)
  }

  /** Where the next turn of doImport's loop starts: past the current
      marker, and only while that is still inside the buffer. */
  function NextStart(s: seq<char>, blen: int, start: Option<nat>): (n: Option<nat>)
    ensures n.Some? ==>
      && start.Some? && start.value + |PgpMark| < blen
      && start.value + |PgpMark| <= n.value && IsMarkAt(s, n.value)
      && forall j :: start.value + |PgpMark| <= j < n.value ==> !IsMarkAt(s, j)
    ensures n.None? && start.Some? && start.value + |PgpMark| < blen ==>
      forall j :: start.value + |PgpMark| <= j ==> !IsMarkAt(s, j)
  {
    if start.Some? && start.value + |PgpMark| < blen then Find(s, start.value + |PgpMark|) else None
  }

  /** The successive values `start` takes in doImport's do-while loop,
      beginning at `start`: the loop body runs at least once, only the
      first value can be absent, and the positions strictly increase. */
  function Scan(s: seq<char>, blen: int, start: Option<nat>): (starts: seq<Option<nat>>)
    requires ValidStart(s, start)
    ensures |starts| >= 1 && starts[0] == start
    ensures forall k :: 0 <= k < |starts| ==> ValidStart(s, starts[k])
    ensures forall k :: 1 <= k < |starts| ==> starts[k].Some?
    ensures forall j, k :: 0 <= j < k < |starts| ==> starts[j].Some? && starts[j].value < starts[k].value
    decreases if start.Some? then |s| + 1 - start.value else 0
  {
    var next := NextStart(s, blen, start);
    if next.None? then [start]
    else
      var rest := Scan(s, blen, next);
      assert forall k :: 1 <= k < |[start] + rest| ==> ([start] + rest)[k] == rest[k - 1];
      [start] + rest
  }

  /** The start positions of a buffer's blocks, in order. */
  function Blocks(buf: seq<char>): (starts: seq<Option<nat>>)
    ensures |starts| >= 1
  {
    Scan(CString(buf), |buf|, Find(CString(buf), 0))
  }

  lemma {:induction false} ScanFromMark(s: seq<char>, blen: int, p: nat)
    requires |s| <= blen
    requires IsMarkAt(s, p)
    ensures forall i :: (p <= i && IsMarkAt(s, i)) <==> Some(i) in Scan(s, blen, Some(p))
    decreases |s| + 1 - p
  {
    var starts := Scan(s, blen, Some(p));
    var next := NextStart(s, blen, Some(p));
    forall i | p < i && i < p + |PgpMark|
      ensures !IsMarkAt(s, i)
    {
      if IsMarkAt(s, i) {
        MarksDoNotOverlap(s, p, i);
      }
    }
    if next.None? {
      assert starts == [Some(p)];
    } else {
      var q := next.value;
      ScanFromMark(s, blen, q);
      assert starts == [Some(p)] + Scan(s, blen, next);
    }
  }

  /** doImport visits every marker in the buffer's C string, each once, in
      order, and nothing else. */
  lemma BlocksAreTheMarkers(buf: seq<char>)
    ensures forall i :: IsMarkAt(CString(buf), i) <==> Some(i) in Blocks(buf)
  {
    var s := CString(buf);
    var first := Find(s, 0);
    if first.Some? {
      ScanFromMark(s, |buf|, first.value);
    } else {
      assert Blocks(buf) == [None];
    }
  }

  /** With no marker, the loop body still runs once, with no start. */
  lemma NoMarkerOneBlock(buf: seq<char>)
    requires forall i :: !IsMarkAt(CString(buf), i)
    ensures Blocks(buf) == [None]
  {
  }
}

=== FILE: batch.dfy ===
/** rpmpkgVerifySigs, rpmVerifySignatures and rpmcliVerifySignatures: one
    package at a chosen verbosity, the API wrapper, and the batch driver
    that counts the packages that fail. */
module Batch {
  import opened RpmTypes
  import opened Pipeline
  import Formatters

  /** What one package produced: its rc and the lines it logged, in order. */
  datatype FileOutcome = FileOutcome(rc: RC, output: seq<string>)

  function Texts(reports: seq<Report>): (ts: seq<string>)
    ensures |ts| == |reports|
  {
    seq(|reports|, k requires 0 <= k < |reports| => reports[k].text)
  }

  /** The error line rpmpkgVerifySignatures logs for an aborted package. */
  function ErrorLines(fn: string, v: Verdict): seq<string>
  {
    if v.logged.Some? then [fn + ": " + v.logged.value + "\n"] else []
  }

  /** rpmpkgVerifySigs: verbose mode names the package on a line of its own
      and shows every item in full; summary mode puts the package name, a
      token per item and the final OK / NOT OK on one line. The verdict is
      the one the package gets with no callback at all. */
  function VerifySigs(verbose: bool, fn: string, pkg: Package, flags: VsFlags, check: Checker): (r: FileOutcome)
    ensures r.rc == VerifyPackage(pkg, flags, check, NoCallback).rc
    ensures |r.output| >= 1
    ensures verbose ==> r.output[0] == fn + ":\n"
    ensures !verbose ==>
      (r.output[0] == fn + ": " && r.output[|r.output| - 1] == (if r.rc != Ok then "NOT OK\n" else "OK\n"))
  {
    Formatters.FormattersPassThrough();
    if verbose then
      var v := VerifyPackage(pkg, flags, check, Formatters.VerboseCallback);
      PassThroughVerdict(pkg, flags, check, Formatters.VerboseCallback);
      FileOutcome(v.rc, [fn + ":\n"] + Texts(v.reports) + ErrorLines(fn, v))
    else
      var v := VerifyPackage(pkg, flags, check, Formatters.DefaultCallback);
      PassThroughVerdict(pkg, flags, check, Formatters.DefaultCallback);
      FileOutcome(v.rc, [fn + ": "] + Texts(v.reports) + ErrorLines(fn, v)
                        + [if v.rc != Ok then "NOT OK\n" else "OK\n"])
  }

  /** rpmVerifySignatures: 1 unless the transaction set, the query
      arguments, the stream and the name are all present; otherwise the
      code of the package's rc. */
  function VerifySignaturesApi(haveTs: bool, qvaFlags: Option<VsFlags>, pkg: Option<Package>,
                               fn: Option<string>, verbose: bool, check: Checker): (rc: int)
    ensures rc == 1 <==> !(haveTs && qvaFlags.Some? && pkg.Some? && fn.Some?)
    ensures rc == 0 <==>
      haveTs && qvaFlags.Some? && pkg.Some? && fn.Some?
      && VerifyPackage(pkg.value, qvaFlags.value, check, NoCallback).rc == Ok
  {
    if haveTs && qvaFlags.Some? && pkg.Some? && fn.Some? then
      Code(VerifySigs(verbose, fn.value, pkg.value, qvaFlags.value, check).rc)
    else 1
  }

  /** The verify flags rpmcliVerifySignatures derives from the query flags. */
  function CliFlags(queryDigest: bool, querySignature: bool): (f: VsFlags)
    ensures queryDigest <==> f & VsfNoDigests == VsfNoDigests
    ensures querySignature <==> f & VsfNoSignatures == VsfNoSignatures
    ensures f & !(VsfNoDigests | VsfNoSignatures) == 0
  {
    (if queryDigest then VsfNoDigests else 0) | (if querySignature then VsfNoSignatures else 0)
  }

  /** A package counts as failed when it cannot be opened or does not verify. */
  predicate FileFails(open: string -> Option<Package>, arg: string, flags: VsFlags, check: Checker)
  {
    open(arg).None? || VerifyPackage(open(arg).value, flags, check, NoCallback).rc != Ok
  }

  /** One turn of the loop: open the package, verify it, report whether it counts as failed. */
  function OneFile(arg: string, open: string -> Option<Package>, flags: VsFlags,
                   verbose: bool, check: Checker): (failed: bool)
    ensures failed <==> FileFails(open, arg, flags, check)
  {
    match open(arg)
    case None => true
    case Some(pkg) => VerifySigs(verbose, arg, pkg, flags, check).rc != Ok
  }

  /** The loop of rpmcliVerifySignatures: one failure per package that
      cannot be opened or fails verification. */
  function VerifyBatch(args: seq<string>, open: string -> Option<Package>, flags: VsFlags,
                       verbose: bool, check: Checker): (res: nat)
    ensures res <= |args|
    ensures res == 0 <==> forall a :: a in args ==> !FileFails(open, a, flags, check)
    ensures res == |args| <==> forall a :: a in args ==> FileFails(open, a, flags, check)
    decreases |args|
  {
    if |args| == 0 then 0
    else
      assert forall a :: a in args <==> a == args[0] || a in args[1..];
      (if OneFile(args[0], open, flags, verbose, check) then 1 else 0)
      + VerifyBatch(args[1..], open, flags, verbose, check)
  }

  /** rpmcliVerifySignatures. */
  function CliVerifySignatures(args: seq<string>, open: string -> Option<Package>, queryDigest: bool,
                               querySignature: bool, verbose: bool, check: Checker): (res: nat)
    ensures res <= |args|
    ensures res == 0 <==>
      forall a :: a in args ==> !FileFails(open, a, CliFlags(queryDigest, querySignature), check)
  {
    VerifyBatch(args, open, CliFlags(queryDigest, querySignature), verbose, check)
  }

  /** Failure counts add up over consecutive parts of the argument list. */
  lemma {:induction false} VerifyBatchAdds(a: seq<string>, b: seq<string>, open: string -> Option<Package>,
                                           flags: VsFlags, verbose: bool, check: Checker)
    ensures VerifyBatch(a + b, open, flags, verbose, check)
         == VerifyBatch(a, open, flags, verbose, check) + VerifyBatch(b, open, flags, verbose, check)
    decreases |a|
  {
    if |a| > 0 {
      assert (a + b)[1..] == a[1..] + b;
      VerifyBatchAdds(a[1..], b, open, flags, verbose, check);
    } else {
      assert a + b == b;
    }
  }

  /** Verbosity changes what is shown, never how many packages fail. */
  lemma {:induction false} VerbosityKeepsCount(args: seq<string>, open: string -> Option<Package>,
                                               flags: VsFlags, check: Checker)
    ensures VerifyBatch(args, open, flags, true, check) == VerifyBatch(args, open, flags, false, check)
    decreases |args|
  {
    if |args| > 0 {
      VerbosityKeepsCount(args[1..], open, flags, check);
    }
  }
}

=== FILE: digest_stream.dfy ===
/** The digest multiplexer of an open package stream: zero or more live
    accumulators, keyed by digest id, that all see every byte read while
    they are attached. An accumulator is modelled by the bytes it has seen. */
module DigestStream {
  import opened RpmTypes

  type Stream = map<int, seq<byte>>

  /** fdInitDigestID. Attaching an id that is already attached leaves its
      accumulator as it is (assumed: the body of fdInitDigestID is not
      part of this model, and the pipeline re-attaches combined items). */
  function Attach(s: Stream, id: int): (r: Stream)
    ensures r.Keys == s.Keys + {id}
    ensures forall k :: k in s ==> r[k] == s[k]
    ensures id !in s ==> r[id] == []
  {
    if id in s then s else s[id := []]
  }

  /** One read of `block` through the stream: every attached accumulator
      sees the block, nothing is attached or detached. */
  function Feed(s: Stream, block: seq<byte>): (r: Stream)
    ensures r.Keys == s.Keys
    ensures forall k :: k in s ==> r[k] == s[k] + block
  {
    map k | k in s :: s[k] + block
  }

  /** fdDupDigest: a copy of the bytes the accumulator has seen, or none
      when no accumulator with that id is attached. */
  function Snapshot(s: Stream, id: int): (r: Option<seq<byte>>)
    ensures r.Some? <==> id in s
    ensures r.Some? ==> r.value == s[id]
  {
    if id in s then Some(s[id]) else None
  }

  /** fdFiniDigest: stops and drops the accumulator with that id. */
  function Detach(s: Stream, id: int): (r: Stream)
    ensures r.Keys == s.Keys - {id}
    ensures forall k :: k in r ==> r[k] == s[k]
  {
    s - {id}
  }

  predicate IsSuffix(a: seq<byte>, b: seq<byte>)
  {
    |a| <= |b| && b[|b| - |a|..] == a
  }

  /** Every attached accumulator has seen exactly the bytes read since it
      was attached: a suffix of everything read so far. */
  ghost predicate Coherent(s: Stream, seen: seq<byte>)
  {
    forall k :: k in s ==> IsSuffix(s[k], seen)
  }

  lemma AttachKeepsCoherent(s: Stream, seen: seq<byte>, id: int)
    requires Coherent(s, seen)
    ensures Coherent(Attach(s, id), seen)
  {
    var r := Attach(s, id);
    forall k | k in r
      ensures IsSuffix(r[k], seen)
    {
      if k !in s {
        assert r[k] == [];
        assert seen[|seen|..] == [];
      }
    }
  }

  /** A read feeds every attached accumulator before anything else happens. */
  lemma FeedKeepsCoherent(s: Stream, seen: seq<byte>, block: seq<byte>)
    requires Coherent(s, seen)
    ensures Coherent(Feed(s, block), seen + block)
  {
    var r := Feed(s, block);
    forall k | k in r
      ensures IsSuffix(r[k], seen + block)
    {
      var a := s[k];
      var n := |seen| - |a|;
      assert seen[n..] == a;
      assert (seen + block)[n..] == seen[n..] + block;
      assert |seen + block| - |a + block| == n;
    }
  }

  lemma DetachKeepsCoherent(s: Stream, seen: seq<byte>, id: int)
    requires Coherent(s, seen)
    ensures Coherent(Detach(s, id), seen)
  {
  }

  /** Two reads feed the accumulators the same as one read of both blocks. */
  lemma FeedTwice(s: Stream, a: seq<byte>, b: seq<byte>)
    ensures Feed(Feed(s, a), b) == Feed(s, a + b)
  {
    var l := Feed(Feed(s, a), b);
    var r := Feed(s, a + b);
    assert l.Keys == r.Keys;
    forall k | k in l
      ensures l[k] == r[k]
    {
      assert l[k] == s[k] + a + b;
    }
  }

  lemma FeedNothing(s: Stream)
    ensures Feed(s, []) == s
  {
    var r := Feed(s, []);
    forall k | k in r
      ensures r[k] == s[k]
    {
      assert s[k] + [] == s[k];
    }
  }
}

=== FILE: enablement.dfy ===
/** sinfoDisabled: whether a signature item takes part in verification at all. */
module Enablement {
  import opened RpmTypes

  /** An item is disabled when it has no hash algorithm, when one of its
      disabler bits is set in the flags, or when the flags ask for
      header-only checking (RPMVSF_NEEDPAYLOAD) and its range reaches the
      payload. */
  predicate Disabled(info: SigInfo, flags: VsFlags)
  {
    if info.hashalgo == 0 then true
    else if flags & info.disabler != 0 then true
    else if flags & VsfNeedPayload != 0 && info.range & RangePayload != 0 then true
    else false
  }

  /** Only the item's own disabler bits and RPMVSF_NEEDPAYLOAD matter:
      clearing every other flag bit never changes the answer. */
  lemma DisabledLooksOnlyAtItsBits(info: SigInfo, flags: VsFlags)
    ensures Disabled(info, flags) == Disabled(info, flags & (info.disabler | VsfNeedPayload))
  {
    var g := flags & (info.disabler | VsfNeedPayload);
    MaskKeeps(flags, info.disabler, VsfNeedPayload);
    SameBitsSameAnswer(info, flags, g);
  }

  /** Masking with d | n keeps the bits of d and of n. */
  lemma MaskKeeps(a: VsFlags, d: VsFlags, n: VsFlags)
    ensures (a & (d | n)) & d == a & d
    ensures (a & (d | n)) & n == a & n
  {
  }

  /** Two flag words that agree on the item's disabler test and on the
      NEEDPAYLOAD test give the same answer. */
  lemma SameBitsSameAnswer(info: SigInfo, f: VsFlags, g: VsFlags)
    requires f & info.disabler == g & info.disabler
    requires f & VsfNeedPayload == g & VsfNeedPayload
    ensures Disabled(info, f) == Disabled(info, g)
  {
    DisabledTests(info, f);
    DisabledTests(info, g);
  }

  /** The early returns of sinfoDisabled as one condition. */
  lemma DisabledTests(info: SigInfo, flags: VsFlags)
    ensures Disabled(info, flags) ==
      (info.hashalgo == 0 || flags & info.disabler != 0
       || (flags & VsfNeedPayload != 0 && info.range & RangePayload != 0))
  {
  }

  /** Setting more flag bits never enables an item again. */
  lemma MoreFlagsDisableMore(info: SigInfo, flags: VsFlags, extra: VsFlags)
    requires Disabled(info, flags)
    ensures Disabled(info, flags | extra)
  {
    if flags & info.disabler != 0 {
      assert (flags | extra) & info.disabler != 0 by {
        assert (flags | extra) & info.disabler == (flags & info.disabler) | (extra & info.disabler);
      }
    }
  }

  /** Under RPMVSF_NEEDPAYLOAD alone, an item with a hash algorithm whose
      disabler lacks that bit is enabled exactly when its range stays
      within the header. */
  lemma NeedPayloadKeepsOnlyHeaderItems(info: SigInfo)
    requires info.hashalgo != 0
    requires info.disabler & VsfNeedPayload == 0
    ensures !Disabled(info, VsfNeedPayload) <==> info.range & RangePayload == 0
  {
  }

  /** With no flags, only items lacking a hash algorithm are disabled. */
  lemma NoFlagsDisablesOnlyMissingAlgorithms(info: SigInfo)
    ensures Disabled(info, 0) <==> info.hashalgo == 0
  {
  }
}

=== FILE: formatters.dfy ===
/** The two reporting callbacks, formatVerbose and formatDefault. Both show
    something about an item and hand its result back unchanged. */
module Formatters {
  import opened RpmTypes

  /** The one name table: the lower-case abbreviation of each tag the
      summary formatter knows. PGP5 is a legacy spelling of PGP. */
  function Abbrev(tag: int): Option<string>
  {
    if tag == TagSize then Some("size")
    else if tag == TagSha1 then Some("sha1")
    else if tag == TagSha256 then Some("sha256")
    else if tag == TagMd5 then Some("md5")
    else if tag == TagRsa then Some("rsa")
    else if tag == TagPgp5 || tag == TagPgp then Some("pgp")
    else if tag == TagDsa then Some("dsa")
    else if tag == TagGpg then Some("gpg")
    else if tag == TagPayloadDigest then Some("payload")
    else None
  }

  predicate IsUpperLetter(c: char) { 'A' <= c <= 'Z' }
  predicate IsLowerLetter(c: char) { 'a' <= c <= 'z' }

  function UpperChar(c: char): char
  {
    if IsLowerLetter(c) then (c as int - 32) as char else c
  }

  function LowerChar(c: char): char
  {
    if IsUpperLetter(c) then (c as int + 32) as char else c
  }

  function ToUpper(s: string): string
  {
    seq(|s|, i requires 0 <= i < |s| => UpperChar(s[i]))
  }

  function ToLower(s: string): string
  {
    seq(|s|, i requires 0 <= i < |s| => LowerChar(s[i]))
  }

  /** The name shown for a tag: the abbreviation in upper case for a
      failure and as is otherwise; a placeholder for an unknown tag. */
  function SigName(tag: int, upper: bool): string
  {
    match Abbrev(tag)
    case Some(a) => if upper then ToUpper(a) else a
    case None => if upper then "?UnknownSigatureType?" else "???"
  }

  /** formatVerbose: the result text on a line of its own, indented; the
      result is handed back unchanged. */
  function FormatVerbose(info: SigInfo, sigres: RC, result: string): (r: Formatted)
    ensures r.rc == sigres
    ensures |r.text| == |result| + 5 && r.text[..4] == "    " && r.text[4..|r.text| - 1] == result
    ensures r.text[|r.text| - 1] == '\n'
  {
    Formatted(sigres, "    " + result + "\n")
  }

  /** The name inside a token formatDefault printed: without the
      parentheses, if any, and the trailing space. */
  function TokenName(text: string): string
    requires |text| >= 2
  {
    if text[0] == '(' && |text| >= 3 then text[1..|text| - 2] else text[..|text| - 1]
  }

  /** formatDefault: a short token, followed by a space and no line break,
      in parentheses exactly for a missing key; the result is handed back
      unchanged. For a known tag the token is the tag's abbreviation, in
      upper case exactly on failure; an unknown tag gets a placeholder. */
  function FormatDefault(info: SigInfo, sigres: RC, result: string): (r: Formatted)
    ensures r.rc == sigres
    ensures |r.text| >= 2 && r.text[|r.text| - 1] == ' '
    ensures r.text[0] == '(' <==> sigres == NoKey
    ensures sigres == NoKey ==> |r.text| >= 3 && r.text == "(" + TokenName(r.text) + ") "
    ensures sigres != NoKey ==> r.text == TokenName(r.text) + " "
    ensures Abbrev(info.tag).Some? ==> ToLower(TokenName(r.text)) == Abbrev(info.tag).value
    ensures Abbrev(info.tag).Some? && sigres == Ok ==> TokenName(r.text) == Abbrev(info.tag).value
    ensures Abbrev(info.tag).None? ==>
      TokenName(r.text) == (if sigres == Ok then "???" else "?UnknownSigatureType?")
  {
    var name := SigName(info.tag, sigres != Ok);
    NameNotParenthesized(info.tag, sigres != Ok);
    var text := if sigres == NoKey then "(" + name + ") " else name + " ";
    assert TokenName(text) == name;
    if Abbrev(info.tag).Some? then
      NameLowersToAbbrev(info.tag, sigres != Ok);
      Formatted(sigres, text)
    else
      Formatted(sigres, text)
  }

  /** Either spelling of a known tag's name lower-cases to its abbreviation. */
  lemma NameLowersToAbbrev(tag: int, upper: bool)
    requires Abbrev(tag).Some?
    ensures ToLower(SigName(tag, upper)) == Abbrev(tag).value
  {
    var a := Abbrev(tag).value;
    AbbrevIsLowerCase(tag);
    if upper {
      UpperNameLowersToLowerName(tag);
    } else {
      assert forall i :: 0 <= i < |a| ==> LowerChar(a[i]) == a[i];
    }
  }

  lemma NameNotParenthesized(tag: int, upper: bool)
    ensures |SigName(tag, upper)| > 0 && SigName(tag, upper)[0] != '('
  {
    match Abbrev(tag)
    case Some(a) =>
      assert |a| > 0 && IsLowerLetter(a[0]);
    case None =>
  }

  const VerboseCallback: Callback := Callback(FormatVerbose)
  const DefaultCallback: Callback := Callback(FormatDefault)

  /** Neither formatter changes a result, so neither can change a verdict. */
  lemma FormattersPassThrough()
    ensures PassesThrough(VerboseCallback)
    ensures PassesThrough(DefaultCallback)
  {
  }

  /** Every abbreviation in the table is free of upper-case letters. */
  lemma AbbrevIsLowerCase(tag: int)
    requires Abbrev(tag).Some?
    ensures forall i :: 0 <= i < |Abbrev(tag).value| ==> !IsUpperLetter(Abbrev(tag).value[i])
  {
  }

  /** For a known tag, formatDefault's token has only upper-case letters
      when the item failed and only lower-case letters when it passed. */
  lemma FormatDefaultCase(info: SigInfo, sigres: RC, result: string)
    requires Abbrev(info.tag).Some?
    ensures var t := FormatDefault(info, sigres, result).text;
      && (sigres != Ok ==> forall i :: 0 <= i < |t| ==> !IsLowerLetter(t[i]))
      && (sigres == Ok ==> forall i :: 0 <= i < |t| ==> !IsUpperLetter(t[i]))
  {
    AbbrevIsLowerCase(info.tag);
    var t := FormatDefault(info, sigres, result).text;
    var name := SigName(info.tag, sigres != Ok);
    if sigres == NoKey {
      assert t == "(" + name + ") ";
      assert forall i :: 1 <= i < |t| - 2 ==> t[i] == name[i - 1];
    } else {
      assert t == name + " ";
      assert forall i :: 0 <= i < |t| - 1 ==> t[i] == name[i];
    }
  }

  /** The upper-case and lower-case names of a known tag are the same word. */
  lemma UpperNameLowersToLowerName(tag: int)
    requires Abbrev(tag).Some?
    ensures ToLower(SigName(tag, true)) == SigName(tag, false)
  {
    AbbrevIsLowerCase(tag);
    var a := Abbrev(tag).value;
    forall i | 0 <= i < |a|
      ensures LowerChar(UpperChar(a[i])) == a[i]
    {
    }
  }

  /** The legacy PGP5 tag is shown exactly as PGP. */
  lemma Pgp5ShownAsPgp(upper: bool)
    ensures SigName(TagPgp5, upper) == SigName(TagPgp, upper)
  {
  }

  /** The upper-case names are the words the summary line shows for failures. */
  lemma UpperNames()
    ensures SigName(TagSize, true) == "SIZE"
    ensures SigName(TagSha1, true) == "SHA1"
    ensures SigName(TagSha256, true) == "SHA256"
    ensures SigName(TagMd5, true) == "MD5"
    ensures SigName(TagRsa, true) == "RSA"
    ensures SigName(TagPgp, true) == "PGP"
    ensures SigName(TagDsa, true) == "DSA"
    ensures SigName(TagGpg, true) == "GPG"
    ensures SigName(TagPayloadDigest, true) == "PAYLOAD"
  {
  }
}

=== FILE: key_import.dfy ===
/** Public-key import (doImport and rpmcliImportPubkeys): every armored
    block of every argument is parsed, its certificates are split off one by
    one and offered to the keyring, and every failure is counted. */
module KeyImport {
  import opened RpmTypes
  import opened ArmorScan

  type Keyring = seq<seq<byte>>

  /** What pgpParsePkts makes of the text from a block start (or of no
      text at all): a public-key packet, or anything else. */
  datatype Armor = PubKeyArmor(pkt: seq<byte>) | OtherArmor

  /** pgpPubKeyCertLen: the length of the first certificate of a packet, or
      none when it cannot be determined. A length is never zero and never
      runs past the packet. */
  type CertLenFn = f: seq<byte> -> Option<nat> | forall p :: f(p).Some? ==> 0 < f(p).value <= |p|
    witness (p: seq<byte>) => None

  /** rpmioSlurp's answer: its return code and the bytes read, if any. */
  datatype Slurped = Slurped(iorc: int, buf: Option<seq<char>>)

  /** The collaborators of the import path: the armor parser, the
      certificate splitter, the keyring's acceptance test
      (rpmtsImportPubkey), macro expansion and whole-file reading. */
  datatype ImportEnv = ImportEnv(
    parse: Option<string> -> Armor,
    certLen: CertLenFn,
    accept: (Keyring, seq<byte>) -> bool,
    expand: string -> string,
    slurp: string -> Slurped)

  datatype Why = NotArmoredPubKey | CertImportFailed

  /** One logged and counted failure: a read that was refused, or a key
      (numbered from 1 within its file) that could not be imported. */
  datatype ImportFailure =
    | ReadFailed(source: string, iorc: int)
    | KeyFailed(source: string, keyno: int, why: Why)

  datatype ImportState = ImportState(ring: Keyring, failures: seq<ImportFailure>)

  // ---------------------------------------------------------------
  // Certificates of one packet
  // ---------------------------------------------------------------

  function Flatten(certs: seq<seq<byte>>): seq<byte>
  {
    if |certs| == 0 then [] else certs[0] + Flatten(certs[1..])
  }

  /** The certificates a packet splits into, independent of the keyring:
      consecutive pieces from the front, until the packet is used up or a
      length cannot be determined. */
  datatype Walk = Walk(certs: seq<seq<byte>>, lenFailed: bool)

  function CertWalk(certLen: CertLenFn, pkt: seq<byte>): (w: Walk)
    ensures forall i :: 0 <= i < |w.certs| ==> |w.certs[i]| > 0
    ensures |w.certs| <= |pkt|
    decreases |pkt|
  {
    if |pkt| == 0 then Walk([], false)
    else match certLen(pkt)
      case None => Walk([], true)
      case Some(n) =>
        var w := CertWalk(certLen, pkt[n..]);
        Walk([pkt[..n]] + w.certs, w.lenFailed)
  }

  /** The certificates are consecutive pieces of the packet from its front;
      they cover all of it unless the walk stopped at an unreadable length,
      which always leaves something unread. */
  lemma {:induction false} CertWalkCovers(certLen: CertLenFn, pkt: seq<byte>)
    ensures var w := CertWalk(certLen, pkt);
      && Flatten(w.certs) <= pkt
      && (!w.lenFailed ==> Flatten(w.certs) == pkt)
      && (w.lenFailed ==> |Flatten(w.certs)| < |pkt|)
    decreases |pkt|
  {
    if |pkt| > 0 && certLen(pkt).Some? {
      var n := certLen(pkt).value;
      var w := CertWalk(certLen, pkt[n..]);
      CertWalkCovers(certLen, pkt[n..]);
      var c := [pkt[..n]] + w.certs;
      assert CertWalk(certLen, pkt) == Walk(c, w.lenFailed);
      assert c[0] == pkt[..n] && c[1..] == w.certs;
      assert Flatten(c) == pkt[..n] + Flatten(w.certs);
      PrefixAfter(pkt, n, Flatten(w.certs));
    }
  }

  /** A prefix of what follows position n, appended to the first n
      elements, is a prefix of the whole. */
  lemma PrefixAfter(p: seq<byte>, n: int, f: seq<byte>)
    requires 0 <= n <= |p| && f <= p[n..]
    ensures p[..n] + f <= p
    ensures f == p[n..] ==> p[..n] + f == p
  {
    assert p[..n] + f == p[..n + |f|];
  }

  /** How many outcomes a packet produces: one per certificate, plus one
      when the walk stops at an unreadable length. */
  function CertCount(w: Walk): nat
  {
    |w.certs| + (if w.lenFailed then 1 else 0)
  }

  /** The certificate loop of doImport: each certificate either joins the
      keyring or is counted as a failed import; an unreadable length is
      counted once and ends the loop. */
  function ImportCerts(env: ImportEnv, fn: string, keyno: int, pkt: seq<byte>, st: ImportState): (r: ImportState)
    ensures st.ring <= r.ring && st.failures <= r.failures
    ensures forall i :: |st.failures| <= i < |r.failures| ==> r.failures[i] == KeyFailed(fn, keyno, CertImportFailed)
    ensures (|r.ring| - |st.ring|) + (|r.failures| - |st.failures|) == CertCount(CertWalk(env.certLen, pkt))
    decreases |pkt|
  {
    if |pkt| == 0 then st
    else match env.certLen(pkt)
      case None => ImportState(st.ring, st.failures + [KeyFailed(fn, keyno, CertImportFailed)])
      case Some(n) =>
        var next := ImportCert(env, fn, keyno, pkt[..n], st);
        var r := ImportCerts(env, fn, keyno, pkt[n..], next);
        r
  }

  /** The keyring only gains certificates of the packet. */
  lemma {:induction false} ImportedCertsComeFromPacket(env: ImportEnv, fn: string, keyno: int, pkt: seq<byte>,
                                                       st: ImportState, i: int)
    requires |st.ring| <= i < |ImportCerts(env, fn, keyno, pkt, st).ring|
    ensures ImportCerts(env, fn, keyno, pkt, st).ring[i] in CertWalk(env.certLen, pkt).certs
    decreases |pkt|
  {
    var n := env.certLen(pkt).value;
    var next := ImportCert(env, fn, keyno, pkt[..n], st);
    CertStep(env, fn, keyno, pkt, st);
    if i < |next.ring| {
      assert next.ring[i] == pkt[..n];
    } else {
      ImportedCertsComeFromPacket(env, fn, keyno, pkt[n..], next, i);
    }
  }

  /** rpmtsImportPubkey on one certificate: it joins the keyring, or one
      failure is counted for its key. */
  function ImportCert(env: ImportEnv, fn: string, keyno: int, cert: seq<byte>, st: ImportState): (r: ImportState)
    ensures env.accept(st.ring, cert) ==> r == ImportState(st.ring + [cert], st.failures)
    ensures !env.accept(st.ring, cert) ==> r == ImportState(st.ring, st.failures + [KeyFailed(fn, keyno, CertImportFailed)])
  {
    if env.accept(st.ring, cert) then ImportState(st.ring + [cert], st.failures)
    else ImportState(st.ring, st.failures + [KeyFailed(fn, keyno, CertImportFailed)])
  }

  /** With a keyring that accepts everything, the packet's certificates are
      added in order, and the only possible failure is an unreadable length. */
  lemma {:induction false} ImportCertsAllAccepted(env: ImportEnv, fn: string, keyno: int, pkt: seq<byte>, st: ImportState)
    requires forall ring, c :: env.accept(ring, c)
    ensures ImportCerts(env, fn, keyno, pkt, st).ring == st.ring + CertWalk(env.certLen, pkt).certs
    ensures |ImportCerts(env, fn, keyno, pkt, st).failures| - |st.failures|
         == (if CertWalk(env.certLen, pkt).lenFailed then 1 else 0)
    decreases |pkt|
  {
    if |pkt| == 0 {
      assert ImportCerts(env, fn, keyno, pkt, st) == st;
      assert CertWalk(env.certLen, pkt) == Walk([], false);
      assert st.ring + [] == st.ring;
    } else if env.certLen(pkt).None? {
      assert CertWalk(env.certLen, pkt) == Walk([], true);
      assert ImportCerts(env, fn, keyno, pkt, st).ring == st.ring;
      assert st.ring + [] == st.ring;
    } else {
      var n := env.certLen(pkt).value;
      var cert := pkt[..n];
      var next := ImportState(st.ring + [cert], st.failures);
      var w := CertWalk(env.certLen, pkt[n..]);
      var r := ImportCerts(env, fn, keyno, pkt[n..], next);
      assert ImportCerts(env, fn, keyno, pkt, st) == r && CertWalk(env.certLen, pkt) == Walk([cert] + w.certs, w.lenFailed) by {
        CertStep(env, fn, keyno, pkt, st);
        assert ImportCert(env, fn, keyno, cert, st) == next;
      }
      ImportCertsAllAccepted(env, fn, keyno, pkt[n..], next);
      AppendOne(st.ring, cert, w.certs);
    }
  }

  lemma AppendOne<T>(a: seq<T>, x: T, b: seq<T>)
    ensures (a + [x]) + b == a + ([x] + b)
  {
  }

  /** One turn of the certificate loop, for both the walk and the import. */
  lemma CertStep(env: ImportEnv, fn: string, keyno: int, pkt: seq<byte>, st: ImportState)
    requires |pkt| > 0 && env.certLen(pkt).Some?
    ensures var n := env.certLen(pkt).value;
      && CertWalk(env.certLen, pkt)
         == Walk([pkt[..n]] + CertWalk(env.certLen, pkt[n..]).certs, CertWalk(env.certLen, pkt[n..]).lenFailed)
      && ImportCerts(env, fn, keyno, pkt, st)
         == ImportCerts(env, fn, keyno, pkt[n..], ImportCert(env, fn, keyno, pkt[..n], st))
  {
  }

  // ---------------------------------------------------------------
  // Blocks of one buffer
  // ---------------------------------------------------------------

  /** The text pgpParsePkts receives for a block: the C string from the
      marker on, or nothing when no marker was found. (Block starts come
      from the marker search and always lie inside the text.) */
  function BlockText(s: seq<char>, start: Option<nat>): Option<string>
  {
    if start.Some? && start.value <= |s| then Some(s[start.value..]) else None
  }

  /** The number of outcomes (imported or failed) a block produces,
      independent of the keyring. */
  function BlockWork(env: ImportEnv, s: seq<char>, start: Option<nat>): nat
  {
    match env.parse(BlockText(s, start))
    case PubKeyArmor(pkt) => CertCount(CertWalk(env.certLen, pkt))
    case OtherArmor => 1
  }

  /** One turn of doImport's loop, for key number `keyno`. */
  function ImportBlock(env: ImportEnv, fn: string, s: seq<char>, keyno: int, start: Option<nat>, st: ImportState): (r: ImportState)
    ensures st.ring <= r.ring && st.failures <= r.failures
    ensures forall i :: |st.failures| <= i < |r.failures| ==>
      r.failures[i].KeyFailed? && r.failures[i].source == fn && r.failures[i].keyno == keyno
    ensures (|r.ring| - |st.ring|) + (|r.failures| - |st.failures|) == BlockWork(env, s, start)
    ensures env.parse(BlockText(s, start)).OtherArmor? ==>
      r == ImportState(st.ring, st.failures + [KeyFailed(fn, keyno, NotArmoredPubKey)])
  {
    match env.parse(BlockText(s, start))
    case PubKeyArmor(pkt) => ImportCerts(env, fn, keyno, pkt, st)
    case OtherArmor => ImportState(st.ring, st.failures + [KeyFailed(fn, keyno, NotArmoredPubKey)])
  }

  function TotalWork(env: ImportEnv, s: seq<char>, starts: seq<Option<nat>>): nat
  {
    if |starts| == 0 then 0 else BlockWork(env, s, starts[0]) + TotalWork(env, s, starts[1..])
  }

  /** doImport's loop over the block starts; block k (from 0) is key
      number keyno + k. */
  function ImportBlocks(env: ImportEnv, fn: string, s: seq<char>, starts: seq<Option<nat>>, keyno: int, st: ImportState): (r: ImportState)
    ensures st.ring <= r.ring && st.failures <= r.failures
    ensures forall i :: |st.failures| <= i < |r.failures| ==>
      r.failures[i].KeyFailed? && r.failures[i].source == fn && keyno <= r.failures[i].keyno < keyno + |starts|
    ensures (|r.ring| - |st.ring|) + (|r.failures| - |st.failures|) == TotalWork(env, s, starts)
    decreases |starts|
  {
    if |starts| == 0 then st
    else
      var mid := ImportBlock(env, fn, s, keyno, starts[0], st);
      var r := ImportBlocks(env, fn, s, starts[1..], keyno + 1, mid);
      r
  }

  /** doImport: the failures of one buffer, numbered by key, and the
      keyring after it. A block that is not a public key produces exactly
      one failure; a key block produces one outcome per certificate, and one
      more failure when a certificate length cannot be read. */
  function DoImport(env: ImportEnv, fn: string, buf: seq<char>, ring: Keyring): (r: ImportState)
    ensures ring <= r.ring
    ensures forall f :: f in r.failures ==>
      f.KeyFailed? && f.source == fn && 1 <= f.keyno <= |Blocks(buf)|
    ensures (|r.ring| - |ring|) + |r.failures| == TotalWork(env, CString(buf), Blocks(buf))
  {
    ImportBlocks(env, fn, CString(buf), Blocks(buf), 1, ImportState(ring, []))
  }

  /** Every block that is not an armored public key is reported under its
      own key number. */
  lemma NonKeyBlocksReported(env: ImportEnv, fn: string, s: seq<char>, starts: seq<Option<nat>>,
                             keyno: int, st: ImportState, k: int)
    requires 0 <= k < |starts|
    requires env.parse(BlockText(s, starts[k])).OtherArmor?
    ensures KeyFailed(fn, keyno + k, NotArmoredPubKey) in ImportBlocks(env, fn, s, starts, keyno, st).failures
  {
    var step := (n, b, t) => ImportBlock(env, fn, s, n, b, t);
    var x := KeyFailed(fn, keyno + k, NotArmoredPubKey);
    BlocksAsFold(env, fn, s, step, starts, keyno, st);
    var n, b := keyno + k, starts[k];
    forall t: ImportState
      ensures x in step(n, b, t).failures
    {
      var r := ImportBlock(env, fn, s, n, b, t);
      assert r.failures[|t.failures|] == x;
    }
    FoldKeepsReported(step, starts, keyno, st, k, n, b, x);
  }

  /** doImport's loop over any per-block step. */
  function FoldBlocks(step: (int, Option<nat>, ImportState) -> ImportState, starts: seq<Option<nat>>,
                      keyno: int, st: ImportState): ImportState
    decreases |starts|
  {
    if |starts| == 0 then st else FoldBlocks(step, starts[1..], keyno + 1, step(keyno, starts[0], st))
  }

  lemma {:induction false} BlocksAsFold(env: ImportEnv, fn: string, s: seq<char>,
                                        step: (int, Option<nat>, ImportState) -> ImportState,
                                        starts: seq<Option<nat>>, keyno: int, st: ImportState)
    requires forall n, b, t :: step(n, b, t) == ImportBlock(env, fn, s, n, b, t)
    ensures ImportBlocks(env, fn, s, starts, keyno, st) == FoldBlocks(step, starts, keyno, st)
    decreases |starts|
  {
    if |starts| > 0 {
      BlocksAsFold(env, fn, s, step, starts[1..], keyno + 1, ImportBlock(env, fn, s, keyno, starts[0], st));
    }
  }

  /** A failure some step reports survives the rest of the loop, as long as
      every step only adds failures. */
  lemma {:induction false} FoldKeepsReported(step: (int, Option<nat>, ImportState) -> ImportState,
                                             starts: seq<Option<nat>>, keyno: int, st: ImportState,
                                             k: int, n: int, b: Option<nat>, x: ImportFailure)
    requires 0 <= k < |starts| && n == keyno + k && b == starts[k]
    requires forall n, b, t: ImportState :: t.failures <= step(n, b, t).failures
    requires forall t: ImportState :: x in step(n, b, t).failures
    ensures x in FoldBlocks(step, starts, keyno, st).failures
    decreases |starts|
  {
    var mid := step(keyno, starts[0], st);
    if k == 0 {
      FoldKeepsFailures(step, starts[1..], keyno + 1, mid);
      PrefixKeeps(mid.failures, FoldBlocks(step, starts[1..], keyno + 1, mid).failures, x);
    } else {
      assert starts[1..][k - 1] == starts[k];
      FoldKeepsReported(step, starts[1..], keyno + 1, mid, k - 1, n, b, x);
    }
  }

  lemma {:induction false} FoldKeepsFailures(step: (int, Option<nat>, ImportState) -> ImportState,
                                             starts: seq<Option<nat>>, keyno: int, st: ImportState)
    requires forall n, b, t: ImportState :: t.failures <= step(n, b, t).failures
    ensures st.failures <= FoldBlocks(step, starts, keyno, st).failures
    decreases |starts|
  {
    if |starts| > 0 {
      FoldKeepsFailures(step, starts[1..], keyno + 1, step(keyno, starts[0], st));
    }
  }

  /** Running the loop over a prefix of the blocks and then over the rest,
      with the key numbers carried on, is running it over all of them. */
  lemma {:induction false} FoldSplit(step: (int, Option<nat>, ImportState) -> ImportState,
                                     starts: seq<Option<nat>>, j: int, keyno: int, st: ImportState)
    requires 0 <= j <= |starts|
    ensures FoldBlocks(step, starts, keyno, st)
         == FoldBlocks(step, starts[j..], keyno + j, FoldBlocks(step, starts[..j], keyno, st))
    decreases j
  {
    if j == 0 {
      assert starts[..0] == [] && starts[0..] == starts;
    } else {
      var mid := step(keyno, starts[0], st);
      FoldSplit(step, starts[1..], j - 1, keyno + 1, mid);
      assert starts[1..][j - 1..] == starts[j..];
      assert starts[..j][0] == starts[0] && starts[..j][1..] == starts[1..][..j - 1];
    }
  }

  /** Block k of the loop is one step, numbered keyno + k, on the state
      the blocks before it left. */
  lemma FoldLast(step: (int, Option<nat>, ImportState) -> ImportState,
                 starts: seq<Option<nat>>, k: int, keyno: int, st: ImportState)
    requires 0 <= k < |starts|
    ensures FoldBlocks(step, starts[..k + 1], keyno, st)
         == step(keyno + k, starts[k], FoldBlocks(step, starts[..k], keyno, st))
  {
    var p := starts[..k + 1];
    FoldSplit(step, p, k, keyno, st);
    assert p[..k] == starts[..k];
    assert p[k..] == [starts[k]];
  }

  /** When every step only adds to the keyring and to the failures, what
      block k's step leaves is kept to the end of the loop. */
  lemma FoldKeepsStep(step: (int, Option<nat>, ImportState) -> ImportState,
                      starts: seq<Option<nat>>, k: int, keyno: int, st: ImportState)
    requires 0 <= k < |starts|
    requires forall n, b, t: ImportState :: t.ring <= step(n, b, t).ring && t.failures <= step(n, b, t).failures
    ensures var after := step(keyno + k, starts[k], FoldBlocks(step, starts[..k], keyno, st));
      var r := FoldBlocks(step, starts, keyno, st);
      after.ring <= r.ring && after.failures <= r.failures
  {
    FoldLast(step, starts, k, keyno, st);
    FoldSplit(step, starts, k + 1, keyno, st);
    var after := FoldBlocks(step, starts[..k + 1], keyno, st);
    FoldKeepsBoth(step, starts[k + 1..], keyno + k + 1, after);
  }

  lemma {:induction false} FoldKeepsBoth(step: (int, Option<nat>, ImportState) -> ImportState,
                                         starts: seq<Option<nat>>, keyno: int, st: ImportState)
    requires forall n, b, t: ImportState :: t.ring <= step(n, b, t).ring && t.failures <= step(n, b, t).failures
    ensures var r := FoldBlocks(step, starts, keyno, st);
      st.ring <= r.ring && st.failures <= r.failures
    decreases |starts|
  {
    if |starts| > 0 {
      FoldKeepsBoth(step, starts[1..], keyno + 1, step(keyno, starts[0], st));
    }
  }

  /** The loop over the first k + 1 blocks ends with block k, numbered keyno + k. */
  lemma BlocksLast(env: ImportEnv, fn: string, s: seq<char>, starts: seq<Option<nat>>,
                   k: int, keyno: int, st: ImportState)
    requires 0 <= k < |starts|
    ensures ImportBlocks(env, fn, s, starts[..k + 1], keyno, st)
         == ImportBlock(env, fn, s, keyno + k, starts[k], ImportBlocks(env, fn, s, starts[..k], keyno, st))
  {
    var step := (n, b, t) => ImportBlock(env, fn, s, n, b, t);
    BlocksAsFold(env, fn, s, step, starts[..k], keyno, st);
    BlocksAsFold(env, fn, s, step, starts[..k + 1], keyno, st);
    FoldLast(step, starts, k, keyno, st);
  }

  /** Block k (from 0) is imported as key number keyno + k, on the state
      the blocks before it left, and everything it adds to the keyring and
      to the failures stays in doImport's result. With ImportBlock's
      contract, every failure block k reports carries keyno + k. */
  lemma BlockOutcomesNumbered(env: ImportEnv, fn: string, s: seq<char>, starts: seq<Option<nat>>,
                              keyno: int, st: ImportState, k: int)
    requires 0 <= k < |starts|
    ensures var before := ImportBlocks(env, fn, s, starts[..k], keyno, st);
      var after := ImportBlock(env, fn, s, keyno + k, starts[k], before);
      var r := ImportBlocks(env, fn, s, starts, keyno, st);
      && after == ImportBlocks(env, fn, s, starts[..k + 1], keyno, st)
      && after.ring <= r.ring && after.failures <= r.failures
      && |before.failures| <= |after.failures|
      && forall i :: |before.failures| <= i < |after.failures| ==>
           r.failures[i].KeyFailed? && r.failures[i].source == fn && r.failures[i].keyno == keyno + k
  {
    var step := (n, b, t) => ImportBlock(env, fn, s, n, b, t);
    BlocksLast(env, fn, s, starts, k, keyno, st);
    BlocksAsFold(env, fn, s, step, starts, keyno, st);
    BlocksAsFold(env, fn, s, step, starts[..k], keyno, st);
    FoldKeepsStep(step, starts, k, keyno, st);
  }

  lemma PrefixKeeps<T>(a: seq<T>, b: seq<T>, x: T)
    requires a <= b && x in a
    ensures x in b
  {
    var i :| 0 <= i < |a| && a[i] == x;
    assert b[i] == x;
  }

  /** With a keyring that accepts everything, the failures of a buffer are
      exactly its non-key blocks and its unreadable certificate lengths. */
  lemma {:induction false} AllAcceptedFailuresAreParseFailures(env: ImportEnv, fn: string, s: seq<char>,
                                                               starts: seq<Option<nat>>, keyno: int, st: ImportState)
    requires forall ring, c :: env.accept(ring, c)
    ensures |ImportBlocks(env, fn, s, starts, keyno, st).failures| - |st.failures| == ParseFailures(env, s, starts)
    decreases |starts|
  {
    if |starts| > 0 {
      var mid := ImportBlock(env, fn, s, keyno, starts[0], st);
      var r := ImportBlocks(env, fn, s, starts[1..], keyno + 1, mid);
      match env.parse(BlockText(s, starts[0])) {
        case PubKeyArmor(pkt) => ImportCertsAllAccepted(env, fn, keyno, pkt, st);
        case OtherArmor =>
      }
      AllAcceptedFailuresAreParseFailures(env, fn, s, starts[1..], keyno + 1, mid);
    }
  }

  /** The failures no keyring can avoid: blocks that are not armored public
      keys, and packets whose certificate walk stops at an unreadable length. */
  function ParseFailures(env: ImportEnv, s: seq<char>, starts: seq<Option<nat>>): nat
  {
    if |starts| == 0 then 0
    else
      (match env.parse(BlockText(s, starts[0]))
       case PubKeyArmor(pkt) => if CertWalk(env.certLen, pkt).lenFailed then 1 else 0
       case OtherArmor => 1)
      + ParseFailures(env, s, starts[1..])
  }

  /** Without any marker the loop still runs once, on no text. */
  lemma DoImportNoMarker(env: ImportEnv, fn: string, buf: seq<char>, ring: Keyring)
    requires forall i :: !IsMarkAt(CString(buf), i)
    requires env.parse(None).OtherArmor?
    ensures DoImport(env, fn, buf, ring) == ImportState(ring, [KeyFailed(fn, 1, NotArmoredPubKey)])
  {
    NoMarkerOneBlock(buf);
  }

  // ---------------------------------------------------------------
  // Arguments
  // ---------------------------------------------------------------

  predicate IsXDigit(c: char)
  {
    ('0' <= c <= '9') || ('a' <= c <= 'f') || ('A' <= c <= 'F')
  }

  /** The length of the run of hex digits at the front of s. */
  function HexRun(s: string): (n: nat)
    ensures n <= |s|
    ensures forall i :: 0 <= i < n ==> IsXDigit(s[i])
    ensures n < |s| ==> !IsXDigit(s[n])
  {
    if |s| == 0 || !IsXDigit(s[0]) then 0 else 1 + HexRun(s[1..])
  }

  /** An argument is taken for a key id when it starts with "0x" followed
      by a run of exactly 8 or 16 hex digits; what follows the run is not
      looked at, as long as it is not a hex digit. */
  predicate LooksLikeKeyId(arg: string)
  {
    |arg| >= 2 && arg[..2] == "0x" && (HexRun(arg[2..]) == 8 || HexRun(arg[2..]) == 16)
  }

  /** The key-id test in both directions, in terms of the argument's parts. */
  lemma KeyIdIffRunLength(h: string, rest: string)
    requires forall i :: 0 <= i < |h| ==> IsXDigit(h[i])
    requires |rest| == 0 || !IsXDigit(rest[0])
    ensures LooksLikeKeyId("0x" + h + rest) <==> (|h| == 8 || |h| == 16)
  {
    var arg := "0x" + h + rest;
    assert arg[2..] == h + rest;
    HexRunOfParts(h, rest);
  }

  lemma {:induction false} HexRunOfParts(h: string, rest: string)
    requires forall i :: 0 <= i < |h| ==> IsXDigit(h[i])
    requires |rest| == 0 || !IsXDigit(rest[0])
    ensures HexRun(h + rest) == |h|
    decreases |h|
  {
    if |h| > 0 {
      assert (h + rest)[1..] == h[1..] + rest;
      HexRunOfParts(h[1..], rest);
    } else {
      assert h + rest == rest;
    }
  }

  /** A file name that starts with an 8-digit key id is looked up on the
      key server too. */
  lemma FileNamedByKeyIdLooksLikeKeyId()
    ensures LooksLikeKeyId("0xDEADBEEF.asc")
  {
    var h, rest := "DEADBEEF", ".asc";
    assert "0x" + h + rest == "0xDEADBEEF.asc";
    assert forall i :: 0 <= i < |h| ==> IsXDigit(h[i]) by {
      forall i | 0 <= i < |h| ensures IsXDigit(h[i]) {
        assert h[i] in "DEABF";
      }
    }
    KeyIdIffRunLength(h, rest);
  }

  const KeyserverQuery: string := "%{_hkp_keyserver_query}"

  /** The name the argument is read from: for a key id, the expansion of
      the key-server query with the id appended, unless that expansion
      starts with '%' (the macro is not defined). An empty expansion is
      used as it is. */
  function ResolveSource(arg: string, expand: string -> string): (src: string)
    ensures !LooksLikeKeyId(arg) ==> src == arg
    ensures LooksLikeKeyId(arg) ==>
      var t := expand(KeyserverQuery + arg[2..]);
      && ((|t| == 0 || t[0] != '%') ==> src == t)
      && (|t| > 0 && t[0] == '%' ==> src == arg)
  {
    if LooksLikeKeyId(arg) then
      var t := expand(KeyserverQuery + arg[2..]);
      if |t| == 0 || t[0] != '%' then t else arg
    else arg
  }

  /** An undefined key-server macro comes back unexpanded, so the query
      still starts with '%', and the argument is then read as a file name.
      This holds for any expansion that keeps a leading '%'. */
  lemma UndefinedKeyserverKeepsArg(arg: string, expand: string -> string)
    requires forall q {:trigger expand(q)} :: |q| > 0 && q[0] == '%' ==> |expand(q)| > 0 && expand(q)[0] == '%'
    ensures ResolveSource(arg, expand) == arg
  {
    if LooksLikeKeyId(arg) {
      var q := KeyserverQuery + arg[2..];
      assert q[0] == '%';
      var t := expand(q);
      assert |t| > 0 && t[0] == '%';
    }
  }

  /** A defined macro redirects a key id to whatever it expands to, empty
      or not, as long as that does not start with '%'. */
  lemma DefinedKeyserverRedirects(arg: string, expand: string -> string)
    requires LooksLikeKeyId(arg)
    requires var t := expand(KeyserverQuery + arg[2..]); |t| == 0 || t[0] != '%'
    ensures ResolveSource(arg, expand) == expand(KeyserverQuery + arg[2..])
  {
  }

  const MinKeyBufLen := 64

  /** A read is refused when it fails, yields nothing, or yields fewer than
      64 bytes. */
  predicate ReadRejected(sl: Slurped)
  {
    sl.iorc != 0 || sl.buf.None? || |sl.buf.value| < MinKeyBufLen
  }

  /** One argument of rpmcliImportPubkeys: a refused read is one failure
      for the resolved name; otherwise the argument's outcome is doImport's
      on what was read. */
  function ImportArg(env: ImportEnv, arg: string, ring: Keyring): (r: ImportState)
    ensures ring <= r.ring
    ensures ReadRejected(env.slurp(ResolveSource(arg, env.expand))) ==>
      r == ImportState(ring, [ReadFailed(ResolveSource(arg, env.expand), env.slurp(ResolveSource(arg, env.expand)).iorc)])
    ensures !ReadRejected(env.slurp(ResolveSource(arg, env.expand))) ==>
      var fn := ResolveSource(arg, env.expand);
      var buf := env.slurp(fn).buf.value;
      && r == DoImport(env, fn, buf, ring)
      && (|r.ring| - |ring|) + |r.failures| == TotalWork(env, CString(buf), Blocks(buf))
      && forall f :: f in r.failures ==> f.KeyFailed? && f.source == fn
  {
    var fn := ResolveSource(arg, env.expand);
    var sl := env.slurp(fn);
    if ReadRejected(sl) then ImportState(ring, [ReadFailed(fn, sl.iorc)])
    else DoImport(env, fn, sl.buf.value, ring)
  }

  /** What rpmcliImportPubkeys adds to its count for one argument: one for
      a refused read, otherwise what doImport returns. */
  function ArgCount(env: ImportEnv, arg: string, ring: Keyring): (n: nat)
    ensures n == |ImportArg(env, arg, ring).failures|
  {
    var fn := ResolveSource(arg, env.expand);
    var sl := env.slurp(fn);
    if ReadRejected(sl) then 1 else |DoImport(env, fn, sl.buf.value, ring).failures|
  }

  /** The loop of rpmcliImportPubkeys over any per-argument step: the
      arguments in order, the keyring threaded through, the failures
      collected. */
  function ImportEach(step: (string, Keyring) -> ImportState, args: seq<string>, ring: Keyring): (r: ImportState)
    ensures (forall a, k :: k <= step(a, k).ring) ==> ring <= r.ring
    decreases |args|
  {
    if |args| == 0 then ImportState(ring, [])
    else
      var h := step(args[0], ring);
      var t := ImportEach(step, args[1..], h.ring);
      ImportState(t.ring, h.failures + t.failures)
  }

  /** The loop over a + b is the loop over a, then over b from the keyring
      a left; the failures add up. */
  lemma {:induction false} ImportEachAdds(step: (string, Keyring) -> ImportState, a: seq<string>, b: seq<string>, ring: Keyring)
    ensures var ra := ImportEach(step, a, ring);
            var rb := ImportEach(step, b, ra.ring);
            ImportEach(step, a + b, ring) == ImportState(rb.ring, ra.failures + rb.failures)
    decreases |a|
  {
    if |a| == 0 {
      assert a + b == b;
    } else {
      assert (a + b)[1..] == a[1..] + b;
      assert (a + b)[0] == a[0];
      var h := step(a[0], ring);
      ImportEachAdds(step, a[1..], b, h.ring);
      var ra' := ImportEach(step, a[1..], h.ring);
      var rb := ImportEach(step, b, ra'.ring);
      assert h.failures + (ra'.failures + rb.failures) == (h.failures + ra'.failures) + rb.failures;
    }
  }

  /** rpmcliImportPubkeys: each argument imported in turn. */
  function ImportPubkeys(env: ImportEnv, args: seq<string>, ring: Keyring): (r: ImportState)
    ensures ring <= r.ring
  {
    ImportEach((a, k) => ImportArg(env, a, k), args, ring)
  }

  /** The failure rpmcliImportPubkeys records for an argument whose read is refused. */
  function RefusedRead(env: ImportEnv, arg: string): ImportFailure
  {
    var fn := ResolveSource(arg, env.expand);
    ReadFailed(fn, env.slurp(fn).iorc)
  }

  /** Every argument whose read is refused is reported, under its resolved name. */
  lemma RefusedReadsReported(env: ImportEnv, args: seq<string>, ring: Keyring, k: int)
    requires 0 <= k < |args|
    requires ReadRejected(env.slurp(ResolveSource(args[k], env.expand)))
    ensures RefusedRead(env, args[k]) in ImportPubkeys(env, args, ring).failures
  {
    var step := (a, r) => ImportArg(env, a, r);
    assert ImportPubkeys(env, args, ring) == ImportEach(step, args, ring);
    var x := RefusedRead(env, args[k]);
    forall r: Keyring
      ensures x in step(args[k], r).failures
    {
      assert ImportArg(env, args[k], r).failures == [x];
    }
    EachKeepsReported(step, args, ring, k, x);
  }

  /** A failure the step reports for one argument is among the loop's failures. */
  lemma {:induction false} EachKeepsReported(step: (string, Keyring) -> ImportState, args: seq<string>,
                                             ring: Keyring, k: int, x: ImportFailure)
    requires 0 <= k < |args|
    requires forall r: Keyring :: x in step(args[k], r).failures
    ensures x in ImportEach(step, args, ring).failures
    decreases |args|
  {
    var h := step(args[0], ring);
    if k > 0 {
      assert args[1..][k - 1] == args[k];
      EachKeepsReported(step, args[1..], h.ring, k - 1, x);
    }
  }

  /** The sum of per-argument counts along a loop over any step, each
      argument counted on the keyring the earlier ones left. */
  function EachCount(step: (string, Keyring) -> ImportState, count: (string, Keyring) -> nat,
                     args: seq<string>, ring: Keyring): nat
    decreases |args|
  {
    if |args| == 0 then 0
    else count(args[0], ring) + EachCount(step, count, args[1..], step(args[0], ring).ring)
  }

  /** When each step reports as many failures as it counts, the loop's
      failures are the sum of the counts. */
  lemma {:induction false} EachCountIsFailures(step: (string, Keyring) -> ImportState, count: (string, Keyring) -> nat,
                                               args: seq<string>, ring: Keyring)
    requires forall a, k :: |step(a, k).failures| == count(a, k)
    ensures |ImportEach(step, args, ring).failures| == EachCount(step, count, args, ring)
    decreases |args|
  {
    if |args| > 0 {
      EachCountIsFailures(step, count, args[1..], step(args[0], ring).ring);
    }
  }

  /** The sum is zero exactly when every argument counts zero on the
      keyring the arguments before it left. */
  lemma {:induction false} EachCountZero(step: (string, Keyring) -> ImportState, count: (string, Keyring) -> nat,
                                         args: seq<string>, ring: Keyring)
    ensures EachCount(step, count, args, ring) == 0 <==>
      forall k :: 0 <= k < |args| ==> count(args[k], ImportEach(step, args[..k], ring).ring) == 0
    decreases |args|
  {
    if |args| > 0 {
      var h := step(args[0], ring);
      EachCountZero(step, count, args[1..], h.ring);
      assert args[..0] == [];
      forall k | 1 <= k < |args|
        ensures ImportEach(step, args[..k], ring).ring == ImportEach(step, args[1..][..k - 1], h.ring).ring
        ensures args[1..][k - 1] == args[k]
      {
        assert args[..k][0] == args[0];
        assert args[..k][1..] == args[1..][..k - 1];
      }
      if EachCount(step, count, args, ring) == 0 {
        forall k | 0 <= k < |args|
          ensures count(args[k], ImportEach(step, args[..k], ring).ring) == 0
        {
          if k > 0 {
            assert count(args[1..][k - 1], ImportEach(step, args[1..][..k - 1], h.ring).ring) == 0;
          }
        }
      } else if count(args[0], ring) == 0 {
        var j :| 0 <= j < |args[1..]| && count(args[1..][j], ImportEach(step, args[1..][..j], h.ring).ring) != 0;
        assert count(args[j + 1], ImportEach(step, args[..j + 1], ring).ring) != 0;
      }
    }
  }

  /** rpmcliImportPubkeys' result: the number of failures. It adds one per
      refused read and doImport's count for every other argument, each on
      the keyring the arguments before it left; it is zero exactly when
      every argument counts zero. */
  function CliImportPubkeys(env: ImportEnv, args: seq<string>, ring: Keyring): (res: nat)
    ensures res == EachCount((a, k) => ImportArg(env, a, k), (a, k) => ArgCount(env, a, k), args, ring)
    ensures res == 0 <==>
      forall k :: 0 <= k < |args| ==> ArgCount(env, args[k], ImportPubkeys(env, args[..k], ring).ring) == 0
    ensures res == 0 ==> forall k :: 0 <= k < |args| ==> !ReadRejected(env.slurp(ResolveSource(args[k], env.expand)))
  {
    var step := (a, k) => ImportArg(env, a, k);
    var count := (a, k) => ArgCount(env, a, k);
    var r := ImportPubkeys(env, args, ring);
    assert r == ImportEach(step, args, ring);
    forall a, k
      ensures |step(a, k).failures| == count(a, k)
    {
      var fn := ResolveSource(a, env.expand);
      if ReadRejected(env.slurp(fn)) {
        assert step(a, k).failures == [ReadFailed(fn, env.slurp(fn).iorc)];
      }
    }
    EachCountIsFailures(step, count, args, ring);
    EachCountZero(step, count, args, ring);
    assert forall k :: 0 <= k < |args| ==> ImportPubkeys(env, args[..k], ring) == ImportEach(step, args[..k], ring);
    |r.failures|
  }

  /** Importing a + b is importing a, then b into the resulting keyring;
      the failures add up. */
  lemma ImportPubkeysAdds(env: ImportEnv, a: seq<string>, b: seq<string>, ring: Keyring)
    ensures var ra := ImportPubkeys(env, a, ring);
            var rb := ImportPubkeys(env, b, ra.ring);
            ImportPubkeys(env, a + b, ring) == ImportState(rb.ring, ra.failures + rb.failures)
  {
    ImportEachAdds((x, k) => ImportArg(env, x, k), a, b, ring);
  }
}

=== FILE: pipeline.dfy ===
/** rpmpkgVerifySignatures and its helpers initDigests, verifyItems and
    readFile: a package is read phase by phase through the digest stream,
    and every enabled item is checked once the bytes its range covers have
    all gone through its accumulator. */
module Pipeline {
  import opened RpmTypes
  import opened DigestStream
  import opened Enablement

  /** A collaborator call (rpmLeadRead, hdrblobRead, hdrblobImport): its
      value, or a failure together with the message it left, if any. */
  datatype Step<T> = Done(value: T) | Failed(msg: Option<string>)

  /** One Fread of the payload. */
  datatype ReadResult = Data(bytes: seq<byte>) | Eof | ReadError(reason: string)

  /** What Fread returns for that read. */
  function ReadCount(r: ReadResult): int
  {
    match r
    case Data(b) => |b|
    case Eof => 0
    case ReadError(_) => -1
  }

  /** Everything the verifier obtains from one package stream:
      - lead: rpmLeadRead;
      - sigHeader: hdrblobRead and hdrblobImport of the signature header,
        with the entries rpmsinfoInit turns them into;
      - headerBytes: hdrblobRead of the main header, the bytes it reads;
      - copiedTags: hdrblobImport of the main header, with the entries
        headerCopyTags adds to the signature header;
      - payload: the successive Fread results (a stream that runs out
        reads as end of file). */
  datatype Package = Package(
    lead: Step<()>,
    sigHeader: Step<seq<SigEntry>>,
    headerBytes: Step<seq<byte>>,
    copiedTags: Step<seq<SigEntry>>,
    payload: seq<ReadResult>)

  /** rpmVerifySignature: the result for an item given a snapshot of its
      accumulator (none when no accumulator is attached), with its text. */
  datatype CheckResult = CheckResult(rc: RC, text: string)

  type Checker = (SigInfo, Option<seq<byte>>) -> CheckResult

  // ---------------------------------------------------------------- readFile

  /** The index of the read that ends readFile's loop: the first one whose
      count is not positive, or |chunks| when the stream runs out. */
  function StopAt(chunks: seq<ReadResult>): (n: nat)
    ensures n <= |chunks|
    ensures forall i :: 0 <= i < n ==> ReadCount(chunks[i]) > 0
    ensures n < |chunks| ==> ReadCount(chunks[n]) <= 0
  {
    if |chunks| == 0 || ReadCount(chunks[0]) <= 0 then 0 else 1 + StopAt(chunks[1..])
  }

  /** The count the loop ends on. */
  function FinalCount(chunks: seq<ReadResult>): int
  {
    if StopAt(chunks) < |chunks| then ReadCount(chunks[StopAt(chunks)]) else 0
  }

  function Concat(chunks: seq<ReadResult>): seq<byte>
  {
    if |chunks| == 0 then []
    else (if chunks[0].Data? then chunks[0].bytes else []) + Concat(chunks[1..])
  }

  /** The payload bytes read before the loop ends. */
  function PayloadBytes(chunks: seq<ReadResult>): seq<byte>
  {
    Concat(chunks[..StopAt(chunks)])
  }

  datatype ReadOutcome = ReadOutcome(fd: Stream, failed: bool, msg: Option<string>)

  /** readFile: reads the payload to its end, every block going through the
      attached accumulators; fails, with a message, exactly when the read
      that ends the loop is an error. */
  function ReadFile(fd: Stream, chunks: seq<ReadResult>): (r: ReadOutcome)
    ensures r.fd == Feed(fd, PayloadBytes(chunks))
    ensures r.failed <==> FinalCount(chunks) < 0
    ensures !r.failed ==> r.msg == None
    ensures r.failed ==>
      && StopAt(chunks) < |chunks| && chunks[StopAt(chunks)].ReadError?
      && r.msg == Some("Fread failed: " + chunks[StopAt(chunks)].reason)
    decreases |chunks|
  {
    var count := if |chunks| == 0 then 0 else ReadCount(chunks[0]);
    if count > 0 then
      var rest := ReadFile(Feed(fd, chunks[0].bytes), chunks[1..]);
      FeedTwice(fd, chunks[0].bytes, PayloadBytes(chunks[1..]));
      assert chunks[..StopAt(chunks)] == [chunks[0]] + chunks[1..][..StopAt(chunks[1..])];
      rest
    else
      FeedNothing(fd);
      assert chunks[..StopAt(chunks)] == [];
      ReadOutcome(fd, count != 0,
                  if count < 0 then Some("Fread failed: " + chunks[0].reason) else None)
  }

  // ------------------------------------------------------------- initDigests

  /** initDigests attaches an accumulator for an entry whose rpmsinfoInit
      succeeded, that is enabled, and whose range meets the phase. */
  predicate Attaches(e: SigEntry, phase: RangeBits, flags: VsFlags)
  {
    e.initRc == Ok && !Disabled(e.info, flags) && e.info.range & phase != 0
  }

  function AttachedIds(items: seq<SigEntry>, phase: RangeBits, flags: VsFlags): set<int>
  {
    set e | e in items && Attaches(e, phase, flags) :: e.info.id
  }

  /** initDigests: one accumulator per attaching entry; accumulators that
      are already running keep what they have seen, new ones start empty. */
  function InitDigests(fd: Stream, items: seq<SigEntry>, phase: RangeBits, flags: VsFlags): (r: Stream)
    ensures r.Keys == fd.Keys + AttachedIds(items, phase, flags)
    ensures forall k :: k in fd ==> r[k] == fd[k]
    ensures forall k :: k in r && k !in fd ==> r[k] == []
    decreases |items|
  {
    if |items| == 0 then fd
    else
      var e := items[0];
      var fd1 := if Attaches(e, phase, flags) then Attach(fd, e.info.id) else fd;
      assert AttachedIds(items, phase, flags) ==
        (if Attaches(e, phase, flags) then {e.info.id} else {}) + AttachedIds(items[1..], phase, flags)
      by {
        assert forall x :: x in items <==> x == e || x in items[1..];
      }
      InitDigests(fd1, items[1..], phase, flags)
  }

  // ------------------------------------------------------------- verifyItems

  /** verifyItems checks an entry in this phase when it is enabled, its
      range is exactly the phase, and rpmsinfoInit succeeded. */
  predicate Checks(e: SigEntry, phase: RangeBits, flags: VsFlags)
  {
    !Disabled(e.info, flags) && e.info.range == phase && e.initRc == Ok
  }

  /** The entries checked in a phase, in header order. */
  function Checked(items: seq<SigEntry>, phase: RangeBits, flags: VsFlags): (c: seq<SigEntry>)
    ensures |c| <= |items|
    ensures forall e :: e in c <==> e in items && Checks(e, phase, flags)
  {
    if |items| == 0 then []
    else
      (if Checks(items[0], phase, flags) then [items[0]] else []) + Checked(items[1..], phase, flags)
  }

  function CheckedIds(items: seq<SigEntry>, phase: RangeBits, flags: VsFlags): set<int>
  {
    set e | e in items && Checks(e, phase, flags) :: e.info.id
  }

  /** No two entries share a digest id. */
  ghost predicate DistinctIds(items: seq<SigEntry>)
  {
    forall i, j :: 0 <= i < j < |items| ==> items[i].info.id != items[j].info.id
  }

  /** One checked item: its phase, its entry, the snapshot handed to the
      checker, the checker's result, the effective result after the
      callback, and the text the callback showed. */
  datatype Report = Report(phase: RangeBits, entry: SigEntry, digest: Option<seq<byte>>,
                           raw: RC, effective: RC, text: string)

  datatype PhaseResult = PhaseResult(fd: Stream, failed: bool, reports: seq<Report>)

  function Shown(cb: Callback, info: SigInfo, raw: RC, text: string): string
  {
    match cb
    case NoCallback => ""
    case Callback(f) => f(info, raw, text).text
  }

  /** The report of a checked entry: the checker saw the report's snapshot,
      and the effective result is the callback's answer to the checker's. */
  ghost predicate IsReportOf(rep: Report, phase: RangeBits, check: Checker, cb: Callback)
  {
    var res := check(rep.entry.info, rep.digest);
    && rep.phase == phase
    && rep.raw == res.rc
    && rep.effective == Effective(cb, rep.entry.info, res.rc, res.text)
  }

  /** Checking one entry: snapshot its accumulator, run the checker, hand
      the result to the callback. */
  function CheckItem(fd: Stream, e: SigEntry, phase: RangeBits, check: Checker, cb: Callback): (rep: Report)
    ensures rep.entry == e && rep.digest == Snapshot(fd, e.info.id)
    ensures IsReportOf(rep, phase, check, cb)
  {
    var digest := Snapshot(fd, e.info.id);
    var res := check(e.info, digest);
    Report(phase, e, digest, res.rc, Effective(cb, e.info, res.rc, res.text), Shown(cb, e.info, res.rc, res.text))
  }

  /** verifyItems: walks every entry; a checked entry is verified against a
      snapshot of its accumulator, which is then detached. One report per
      checked entry, in order, carrying the checker's result and the
      callback's effective result; exactly the checked ids are detached. */
  function VerifyItems(fd: Stream, items: seq<SigEntry>, phase: RangeBits, flags: VsFlags,
                       check: Checker, cb: Callback): (r: PhaseResult)
    ensures forall rep :: rep in r.reports ==>
      rep.entry in items && Checks(rep.entry, phase, flags) && IsReportOf(rep, phase, check, cb)
    ensures r.fd.Keys == fd.Keys - CheckedIds(items, phase, flags)
    ensures forall k :: k in r.fd ==> r.fd[k] == fd[k]
    decreases |items|
  {
    if |items| == 0 then PhaseResult(fd, false, [])
    else
      var e := items[0];
      assert CheckedIds(items, phase, flags) ==
        (if Checks(e, phase, flags) then {e.info.id} else {}) + CheckedIds(items[1..], phase, flags)
      by {
        assert forall x :: x in items <==> x == e || x in items[1..];
      }
      if Disabled(e.info, flags) then
        VerifyItems(fd, items[1..], phase, flags, check, cb)
      else if e.info.range == phase && e.initRc == Ok then
        var rep := CheckItem(fd, e, phase, check, cb);
        var rest := VerifyItems(Detach(fd, e.info.id), items[1..], phase, flags, check, cb);
        PhaseResult(rest.fd, rep.effective != Ok || rest.failed, [rep] + rest.reports)
      else
        var rest := VerifyItems(fd, items[1..], phase, flags, check, cb);
        PhaseResult(rest.fd, e.initRc != Ok || rest.failed, rest.reports)
  }

  function Entries(reports: seq<Report>): (es: seq<SigEntry>)
    ensures |es| == |reports|
    ensures forall k :: 0 <= k < |reports| ==> es[k] == reports[k].entry
  {
    if |reports| == 0 then [] else [reports[0].entry] + Entries(reports[1..])
  }

  lemma EntriesAppend(a: seq<Report>, b: seq<Report>)
    ensures Entries(a + b) == Entries(a) + Entries(b)
  {
  }

  /** verifyItems reports the checked entries exactly, in header order. */
  lemma {:induction false} VerifyItemsReportsChecked(fd: Stream, items: seq<SigEntry>, phase: RangeBits,
                                                     flags: VsFlags, check: Checker, cb: Callback)
    ensures Entries(VerifyItems(fd, items, phase, flags, check, cb).reports) == Checked(items, phase, flags)
    decreases |items|
  {
    if |items| > 0 {
      var e := items[0];
      if Disabled(e.info, flags) {
        VerifyItemsReportsChecked(fd, items[1..], phase, flags, check, cb);
      } else if e.info.range == phase && e.initRc == Ok {
        var rest := VerifyItems(Detach(fd, e.info.id), items[1..], phase, flags, check, cb);
        VerifyItemsReportsChecked(Detach(fd, e.info.id), items[1..], phase, flags, check, cb);
        var r := VerifyItems(fd, items, phase, flags, check, cb);
        assert r.reports == [r.reports[0]] + rest.reports;
        assert Entries(r.reports) == [e] + Entries(rest.reports);
      } else {
        VerifyItemsReportsChecked(fd, items[1..], phase, flags, check, cb);
      }
    }
  }

  /** verifyItems returns 1 exactly when some enabled entry failed
      rpmsinfoInit, whatever its range, or some checked entry's effective
      result is not OK; disabled entries never count. */
  lemma {:induction false} VerifyItemsFails(fd: Stream, items: seq<SigEntry>, phase: RangeBits,
                                            flags: VsFlags, check: Checker, cb: Callback)
    ensures var r := VerifyItems(fd, items, phase, flags, check, cb);
      r.failed <==>
        (exists e :: e in items && !Disabled(e.info, flags) && e.initRc != Ok)
        || (exists rep :: rep in r.reports && rep.effective != Ok)
    decreases |items|
  {
    if |items| > 0 {
      var e := items[0];
      assert forall x :: x in items <==> x == e || x in items[1..];
      if Disabled(e.info, flags) {
        VerifyItemsFails(fd, items[1..], phase, flags, check, cb);
      } else if e.info.range == phase && e.initRc == Ok {
        var fd' := Detach(fd, e.info.id);
        VerifyItemsFails(fd', items[1..], phase, flags, check, cb);
        var rest := VerifyItems(fd', items[1..], phase, flags, check, cb);
        var r := VerifyItems(fd, items, phase, flags, check, cb);
        assert r.reports == [r.reports[0]] + rest.reports;
      } else {
        VerifyItemsFails(fd, items[1..], phase, flags, check, cb);
      }
    }
  }

  /** With distinct ids, detaching one checked entry's accumulator never
      disturbs another's: every checked entry sees the snapshot the stream
      held when the phase began. */
  lemma {:induction false} VerifyItemsSnapshots(fd: Stream, items: seq<SigEntry>, phase: RangeBits,
                                                flags: VsFlags, check: Checker, cb: Callback)
    requires DistinctIds(items)
    ensures forall rep :: rep in VerifyItems(fd, items, phase, flags, check, cb).reports ==>
      rep.digest == Snapshot(fd, rep.entry.info.id)
    decreases |items|
  {
    if |items| > 0 {
      var e := items[0];
      DistinctTail(items);
      if Disabled(e.info, flags) {
        VerifyItemsSnapshots(fd, items[1..], phase, flags, check, cb);
      } else if e.info.range == phase && e.initRc == Ok {
        var fd' := Detach(fd, e.info.id);
        VerifyItemsSnapshots(fd', items[1..], phase, flags, check, cb);
        var rest := VerifyItems(fd', items[1..], phase, flags, check, cb);
        var r := VerifyItems(fd, items, phase, flags, check, cb);
        assert r.reports == [r.reports[0]] + rest.reports;
        forall rep | rep in rest.reports
          ensures rep.digest == Snapshot(fd, rep.entry.info.id)
        {
          DistinctHead(items, rep.entry);
        }
      } else {
        VerifyItemsSnapshots(fd, items[1..], phase, flags, check, cb);
      }
    }
  }

  lemma DistinctTail(items: seq<SigEntry>)
    requires DistinctIds(items) && |items| > 0
    ensures DistinctIds(items[1..])
  {
    forall i, j | 0 <= i < j < |items[1..]|
      ensures items[1..][i].info.id != items[1..][j].info.id
    {
      assert items[1..][i] == items[i + 1] && items[1..][j] == items[j + 1];
    }
  }

  lemma DistinctHead(items: seq<SigEntry>, x: SigEntry)
    requires DistinctIds(items) && |items| > 0
    requires x in items[1..]
    ensures x.info.id != items[0].info.id
  {
    var j :| 0 <= j < |items[1..]| && items[1..][j] == x;
    assert items[j + 1] == x;
  }

  /** With distinct ids, an id names one entry only. */
  lemma SameIdSameEntry(items: seq<SigEntry>, a: SigEntry, b: SigEntry)
    requires DistinctIds(items)
    requires a in items && b in items && a.info.id == b.info.id
    ensures a == b
  {
    var i :| 0 <= i < |items| && items[i] == a;
    var j :| 0 <= j < |items| && items[j] == b;
    assert !(i < j) && !(j < i);
  }

  /** When two checked entries of one phase share an id, the first detaches
      the accumulator and the second is checked against no snapshot. */
  lemma SharedIdLeavesSecondWithoutSnapshot(fd: Stream, a: SigEntry, b: SigEntry, phase: RangeBits,
                                            flags: VsFlags, check: Checker, cb: Callback)
    requires Checks(a, phase, flags) && Checks(b, phase, flags)
    requires a.info.id == b.info.id
    ensures var r := VerifyItems(fd, [a, b], phase, flags, check, cb);
      |r.reports| == 2 && r.reports[1].entry == b && r.reports[1].digest == None
  {
    var fd' := Detach(fd, a.info.id);
    assert [a, b][1..] == [b];
    assert [b][1..] == [];
    var last := VerifyItems(fd', [b], phase, flags, check, cb);
    assert last.reports == [CheckItem(fd', b, phase, check, cb)] + VerifyItems(Detach(fd', b.info.id), [], phase, flags, check, cb).reports;
    var r := VerifyItems(fd, [a, b], phase, flags, check, cb);
    assert r.reports == [CheckItem(fd, a, phase, check, cb)] + last.reports;
  }

  /** Callbacks that give back the raw result do not change which phases
      fail, nor what the stream holds afterwards. */
  lemma PassThroughPhase(fd: Stream, items: seq<SigEntry>, phase: RangeBits, flags: VsFlags,
                         check: Checker, cb: Callback)
    requires PassesThrough(cb)
    ensures VerifyItems(fd, items, phase, flags, check, cb).failed
         == VerifyItems(fd, items, phase, flags, check, NoCallback).failed
    ensures VerifyItems(fd, items, phase, flags, check, cb).fd
         == VerifyItems(fd, items, phase, flags, check, NoCallback).fd
    decreases |items|
  {
    if |items| > 0 {
      var e := items[0];
      if !Disabled(e.info, flags) && e.info.range == phase && e.initRc == Ok {
        PassThroughPhase(Detach(fd, e.info.id), items[1..], phase, flags, check, cb);
      } else {
        PassThroughPhase(fd, items[1..], phase, flags, check, cb);
      }
    }
  }

  // ------------------------------------------------------- the whole package

  /** What rpmpkgVerifySignatures produced: its rc, every checked item in
      the order it was checked, and the error line it logged, if any. */
  datatype Verdict = Verdict(rc: RC, reports: seq<Report>, logged: Option<string>)

  /** The exit label: the message is logged only when rc is not OK and a
      message was left. */
  function Finish(rc: RC, reports: seq<Report>, msg: Option<string>): (v: Verdict)
    ensures v.rc == rc && v.reports == reports
    ensures v.logged.Some? <==> rc != Ok && msg.Some?
    ensures v.logged.Some? ==> v.logged == msg
  {
    Verdict(rc, reports, if rc != Ok && msg.Some? then msg else None)
  }

  /** Every collaborator step succeeded and the payload read ended cleanly. */
  predicate Completes(pkg: Package)
  {
    && pkg.lead.Done?
    && pkg.sigHeader.Done?
    && pkg.headerBytes.Done?
    && pkg.copiedTags.Done?
    && FinalCount(pkg.payload) >= 0
  }

  /** The message of the first step that failed. */
  function AbortMessage(pkg: Package): Option<string>
  {
    if pkg.lead.Failed? then pkg.lead.msg
    else if pkg.sigHeader.Failed? then pkg.sigHeader.msg
    else if pkg.headerBytes.Failed? then pkg.headerBytes.msg
    else if pkg.copiedTags.Failed? then pkg.copiedTags.msg
    else if FinalCount(pkg.payload) < 0 then
      Some("Fread failed: " + pkg.payload[StopAt(pkg.payload)].reason)
    else None
  }

  /** The entries of the signature header once the main header's tags are copied in. */
  function AllEntries(pkg: Package): seq<SigEntry>
    requires pkg.sigHeader.Done? && pkg.copiedTags.Done?
  {
    pkg.sigHeader.value + pkg.copiedTags.value
  }

  /** rpmpkgVerifySignatures. The stream starts with no accumulator. The
      package verifies exactly when every step succeeds, every enabled
      entry passed rpmsinfoInit and every checked item is effectively OK;
      an error is logged only for an aborted package, with the message of
      the step that failed. A complete package reports exactly the items
      checked in the header, payload and combined phases, in that order. */
  function VerifyPackage(pkg: Package, flags: VsFlags, check: Checker, cb: Callback): (v: Verdict)
    ensures v.rc == Ok || v.rc == Fail
    ensures v.rc == Ok <==>
      && Completes(pkg)
      && (forall e :: e in AllEntries(pkg) && !Disabled(e.info, flags) ==> e.initRc == Ok)
      && (forall rep :: rep in v.reports ==> rep.effective == Ok)
    ensures Completes(pkg) ==> v.logged == None
    ensures !Completes(pkg) ==> v.logged == AbortMessage(pkg)
    ensures forall rep :: rep in v.reports ==>
      Checks(rep.entry, rep.phase, flags) && IsReportOf(rep, rep.phase, check, cb)
    ensures Completes(pkg) ==>
      Entries(v.reports) == Checked(pkg.sigHeader.value, RangeHeader, flags)
                            + Checked(AllEntries(pkg), RangePayload, flags)
                            + Checked(AllEntries(pkg), RangeBoth, flags)
  {
    if pkg.lead.Failed? then Finish(Fail, [], pkg.lead.msg)
    else if pkg.sigHeader.Failed? then Finish(Fail, [], pkg.sigHeader.msg)
    else
      var sigh := pkg.sigHeader.value;
      var fd1 := InitDigests(map[], sigh, RangeHeader, flags);
      if pkg.headerBytes.Failed? then Finish(Fail, [], pkg.headerBytes.msg)
      else
        var p1 := VerifyItems(Feed(fd1, pkg.headerBytes.value), sigh, RangeHeader, flags, check, cb);
        if pkg.copiedTags.Failed? then Finish(Fail, p1.reports, pkg.copiedTags.msg)
        else
          var all := sigh + pkg.copiedTags.value;
          var rf := ReadFile(InitDigests(p1.fd, all, RangePayload, flags), pkg.payload);
          if rf.failed then Finish(Fail, p1.reports, rf.msg)
          else CompleteVerdict(pkg, flags, check, cb)
  }

  /** The exit of rpmpkgVerifySignatures for a package whose every step
      succeeded: the three phases run in turn and the rc is OK exactly when
      none of them failed. */
  function CompleteVerdict(pkg: Package, flags: VsFlags, check: Checker, cb: Callback): (v: Verdict)
    requires Completes(pkg)
    ensures v.rc == Ok || v.rc == Fail
    ensures v.rc == Ok <==>
      && (forall e :: e in AllEntries(pkg) && !Disabled(e.info, flags) ==> e.initRc == Ok)
      && (forall rep :: rep in v.reports ==> rep.effective == Ok)
    ensures v.logged == None
    ensures forall rep :: rep in v.reports ==>
      Checks(rep.entry, rep.phase, flags) && IsReportOf(rep, rep.phase, check, cb)
    ensures Entries(v.reports) == Checked(pkg.sigHeader.value, RangeHeader, flags)
                                  + Checked(AllEntries(pkg), RangePayload, flags)
                                  + Checked(AllEntries(pkg), RangeBoth, flags)
  {
    var sigh := pkg.sigHeader.value;
    var all := AllEntries(pkg);
    var fd2 := Feed(InitDigests(map[], sigh, RangeHeader, flags), pkg.headerBytes.value);
    var p1 := VerifyItems(fd2, sigh, RangeHeader, flags, check, cb);
    var rf := ReadFile(InitDigests(p1.fd, all, RangePayload, flags), pkg.payload);
    var p2 := VerifyItems(rf.fd, all, RangePayload, flags, check, cb);
    var p3 := VerifyItems(p2.fd, all, RangeBoth, flags, check, cb);
    ThreePhasesFail(fd2, rf.fd, sigh, all, flags, check, cb);
    ThreePhasesReport(fd2, rf.fd, sigh, all, flags, check, cb);
    var ok := !p1.failed && !p2.failed && !p3.failed;
    Finish(if ok then Ok else Fail, p1.reports + p2.reports + p3.reports, None)
  }

  /** The three phases, run one after the other on the streams left by the
      reads, fail exactly when an enabled entry failed rpmsinfoInit or a
      checked item is not effectively OK. */
  lemma ThreePhasesFail(fdh: Stream, fdp: Stream, sigh: seq<SigEntry>, all: seq<SigEntry>,
                        flags: VsFlags, check: Checker, cb: Callback)
    requires forall x :: x in sigh ==> x in all
    ensures var p1 := VerifyItems(fdh, sigh, RangeHeader, flags, check, cb);
      var p2 := VerifyItems(fdp, all, RangePayload, flags, check, cb);
      var p3 := VerifyItems(p2.fd, all, RangeBoth, flags, check, cb);
      (!p1.failed && !p2.failed && !p3.failed) <==>
        && (forall e :: e in all && !Disabled(e.info, flags) ==> e.initRc == Ok)
        && (forall rep :: rep in p1.reports + p2.reports + p3.reports ==> rep.effective == Ok)
  {
    var p1 := VerifyItems(fdh, sigh, RangeHeader, flags, check, cb);
    var p2 := VerifyItems(fdp, all, RangePayload, flags, check, cb);
    var p3 := VerifyItems(p2.fd, all, RangeBoth, flags, check, cb);
    VerifyItemsFails(fdh, sigh, RangeHeader, flags, check, cb);
    VerifyItemsFails(fdp, all, RangePayload, flags, check, cb);
    VerifyItemsFails(p2.fd, all, RangeBoth, flags, check, cb);
    var reports := p1.reports + p2.reports + p3.reports;
    assert forall rep :: rep in reports <==> rep in p1.reports || rep in p2.reports || rep in p3.reports;
  }

  /** The three phases report the entries each of them checks, in phase order. */
  lemma ThreePhasesReport(fdh: Stream, fdp: Stream, sigh: seq<SigEntry>, all: seq<SigEntry>,
                          flags: VsFlags, check: Checker, cb: Callback)
    ensures var p1 := VerifyItems(fdh, sigh, RangeHeader, flags, check, cb);
      var p2 := VerifyItems(fdp, all, RangePayload, flags, check, cb);
      var p3 := VerifyItems(p2.fd, all, RangeBoth, flags, check, cb);
      Entries(p1.reports + p2.reports + p3.reports)
        == Checked(sigh, RangeHeader, flags) + Checked(all, RangePayload, flags) + Checked(all, RangeBoth, flags)
  {
    var p1 := VerifyItems(fdh, sigh, RangeHeader, flags, check, cb);
    var p2 := VerifyItems(fdp, all, RangePayload, flags, check, cb);
    VerifyItemsReportsChecked(fdh, sigh, RangeHeader, flags, check, cb);
    VerifyItemsReportsChecked(fdp, all, RangePayload, flags, check, cb);
    VerifyItemsReportsChecked(p2.fd, all, RangeBoth, flags, check, cb);
    EntriesAppend(p1.reports, p2.reports);
    EntriesAppend(p1.reports + p2.reports, VerifyItems(p2.fd, all, RangeBoth, flags, check, cb).reports);
  }

  // ------------------------------------------------------ pipeline properties

  lemma DistinctPrefix(a: seq<SigEntry>, b: seq<SigEntry>)
    requires DistinctIds(a + b)
    ensures DistinctIds(a)
  {
    forall i, j | 0 <= i < j < |a|
      ensures a[i].info.id != a[j].info.id
    {
      assert (a + b)[i] == a[i] && (a + b)[j] == a[j];
    }
  }

  /** Phase HEADER: accumulators are attached before the header is read, so
      every header item is checked against exactly the header bytes. */
  lemma HeaderPhaseDigests(sigh: seq<SigEntry>, hdr: seq<byte>, flags: VsFlags, check: Checker, cb: Callback)
    requires DistinctIds(sigh)
    ensures forall rep :: rep in VerifyItems(Feed(InitDigests(map[], sigh, RangeHeader, flags), hdr),
                                             sigh, RangeHeader, flags, check, cb).reports ==>
      rep.digest == Some(hdr)
  {
    var fd1 := InitDigests(map[], sigh, RangeHeader, flags);
    var fd2 := Feed(fd1, hdr);
    VerifyItemsSnapshots(fd2, sigh, RangeHeader, flags, check, cb);
    forall rep | rep in VerifyItems(fd2, sigh, RangeHeader, flags, check, cb).reports
      ensures rep.digest == Some(hdr)
    {
      var e := rep.entry;
      assert Attaches(e, RangeHeader, flags);
      assert e.info.id in AttachedIds(sigh, RangeHeader, flags);
      assert fd2[e.info.id] == [] + hdr == hdr;
      assert rep.digest == Snapshot(fd2, e.info.id);
    }
  }

  /** After phase HEADER, the accumulators still attached are those of
      combined items, each holding the header bytes. */
  lemma HeaderPhaseLeaves(sigh: seq<SigEntry>, hdr: seq<byte>, flags: VsFlags, check: Checker, cb: Callback)
    requires DistinctIds(sigh)
    ensures var fd3 := VerifyItems(Feed(InitDigests(map[], sigh, RangeHeader, flags), hdr),
                                   sigh, RangeHeader, flags, check, cb).fd;
      && fd3.Keys <= AttachedIds(sigh, RangeHeader, flags)
      && forall e :: e in sigh && Attaches(e, RangeHeader, flags) && e.info.range == RangeBoth ==>
           e.info.id in fd3 && fd3[e.info.id] == hdr
  {
    var fd1 := InitDigests(map[], sigh, RangeHeader, flags);
    var fd2 := Feed(fd1, hdr);
    var fd3 := VerifyItems(fd2, sigh, RangeHeader, flags, check, cb).fd;
    forall e | e in sigh && Attaches(e, RangeHeader, flags) && e.info.range == RangeBoth
      ensures e.info.id in fd3 && fd3[e.info.id] == hdr
    {
      var id := e.info.id;
      assert id in AttachedIds(sigh, RangeHeader, flags);
      assert fd2[id] == [] + hdr;
      if id in CheckedIds(sigh, RangeHeader, flags) {
        var e' :| e' in sigh && Checks(e', RangeHeader, flags) && e'.info.id == id;
        SameIdSameEntry(sigh, e, e');
        assert false;
      }
    }
  }

  /** Phase PAYLOAD: a payload item's accumulator is attached fresh after
      the header was read, so it has seen exactly the payload bytes. */
  lemma PayloadPhaseDigests(fd3: Stream, sigh: seq<SigEntry>, all: seq<SigEntry>, chunks: seq<ReadResult>,
                            flags: VsFlags, check: Checker, cb: Callback)
    requires DistinctIds(all)
    requires forall x :: x in sigh ==> x in all
    requires fd3.Keys <= AttachedIds(sigh, RangeHeader, flags)
    ensures forall rep :: rep in VerifyItems(ReadFile(InitDigests(fd3, all, RangePayload, flags), chunks).fd,
                                             all, RangePayload, flags, check, cb).reports ==>
      rep.digest == Some(PayloadBytes(chunks))
  {
    var fd4 := InitDigests(fd3, all, RangePayload, flags);
    var fd5 := ReadFile(fd4, chunks).fd;
    VerifyItemsSnapshots(fd5, all, RangePayload, flags, check, cb);
    forall rep | rep in VerifyItems(fd5, all, RangePayload, flags, check, cb).reports
      ensures rep.digest == Some(PayloadBytes(chunks))
    {
      var e := rep.entry;
      var id := e.info.id;
      assert Attaches(e, RangePayload, flags);
      assert id in AttachedIds(all, RangePayload, flags);
      if id in fd3 {
        var e' :| e' in sigh && Attaches(e', RangeHeader, flags) && e'.info.id == id;
        SameIdSameEntry(all, e, e');
        assert false;
      }
      assert fd5[id] == [] + PayloadBytes(chunks) == PayloadBytes(chunks);
      assert rep.digest == Snapshot(fd5, id);
    }
  }

  /** Phase HEADER|PAYLOAD: a combined item of the signature header kept
      its accumulator from before the header was read, so it has seen the
      header bytes followed by the payload bytes. */
  lemma CombinedPhaseDigests(fd3: Stream, sigh: seq<SigEntry>, all: seq<SigEntry>, hdr: seq<byte>,
                             chunks: seq<ReadResult>, flags: VsFlags, check: Checker, cb: Callback)
    requires DistinctIds(all)
    requires forall e :: e in sigh && Attaches(e, RangeHeader, flags) && e.info.range == RangeBoth ==>
      e.info.id in fd3 && fd3[e.info.id] == hdr
    ensures var fd5 := ReadFile(InitDigests(fd3, all, RangePayload, flags), chunks).fd;
      forall rep :: rep in VerifyItems(VerifyItems(fd5, all, RangePayload, flags, check, cb).fd,
                                       all, RangeBoth, flags, check, cb).reports && rep.entry in sigh ==>
        rep.digest == Some(hdr + PayloadBytes(chunks))
  {
    var fd4 := InitDigests(fd3, all, RangePayload, flags);
    var fd5 := ReadFile(fd4, chunks).fd;
    var fd6 := VerifyItems(fd5, all, RangePayload, flags, check, cb).fd;
    VerifyItemsSnapshots(fd6, all, RangeBoth, flags, check, cb);
    forall rep | rep in VerifyItems(fd6, all, RangeBoth, flags, check, cb).reports && rep.entry in sigh
      ensures rep.digest == Some(hdr + PayloadBytes(chunks))
    {
      var e := rep.entry;
      var id := e.info.id;
      assert Attaches(e, RangeHeader, flags);
      assert fd4[id] == hdr;
      assert fd5[id] == hdr + PayloadBytes(chunks);
      if id in CheckedIds(all, RangePayload, flags) {
        var e' :| e' in all && Checks(e', RangePayload, flags) && e'.info.id == id;
        SameIdSameEntry(all, e, e');
        assert false;
      }
    }
  }

  /** Phase HEADER|PAYLOAD, for a combined item that was copied in from
      the main header rather than read with the signature header: its
      accumulator is only attached after the header was read, so it has
      seen the payload bytes alone. (rpm copies RPMTAG_PAYLOADDIGEST only,
      a payload item, so this case does not arise with rpm's own tags.) */
  lemma CopiedCombinedDigests(fd3: Stream, sigh: seq<SigEntry>, all: seq<SigEntry>,
                              chunks: seq<ReadResult>, flags: VsFlags, check: Checker, cb: Callback)
    requires DistinctIds(all)
    requires forall x :: x in sigh ==> x in all
    requires fd3.Keys <= AttachedIds(sigh, RangeHeader, flags)
    ensures var fd5 := ReadFile(InitDigests(fd3, all, RangePayload, flags), chunks).fd;
      forall rep :: rep in VerifyItems(VerifyItems(fd5, all, RangePayload, flags, check, cb).fd,
                                       all, RangeBoth, flags, check, cb).reports && rep.entry !in sigh ==>
        rep.digest == Some(PayloadBytes(chunks))
  {
    var fd4 := InitDigests(fd3, all, RangePayload, flags);
    var fd5 := ReadFile(fd4, chunks).fd;
    var fd6 := VerifyItems(fd5, all, RangePayload, flags, check, cb).fd;
    VerifyItemsSnapshots(fd6, all, RangeBoth, flags, check, cb);
    forall rep | rep in VerifyItems(fd6, all, RangeBoth, flags, check, cb).reports && rep.entry !in sigh
      ensures rep.digest == Some(PayloadBytes(chunks))
    {
      var e := rep.entry;
      var id := e.info.id;
      assert Attaches(e, RangePayload, flags);
      assert id in AttachedIds(all, RangePayload, flags);
      if id in fd3 {
        var e' :| e' in sigh && Attaches(e', RangeHeader, flags) && e'.info.id == id;
        SameIdSameEntry(all, e, e');
        assert false;
      }
      assert fd4[id] == [];
      assert fd5[id] == [] + PayloadBytes(chunks);
      if id in CheckedIds(all, RangePayload, flags) {
        var e' :| e' in all && Checks(e', RangePayload, flags) && e'.info.id == id;
        SameIdSameEntry(all, e, e');
        assert false;
      }
      assert id in fd6 && fd6[id] == PayloadBytes(chunks);
      assert rep.digest == Snapshot(fd6, id);
    }
  }

  /** The phase order makes every checked item's accumulator cover exactly
      its range: a header item has seen the header bytes, a payload item
      the payload bytes, and a combined item of the signature header the
      header bytes followed by the payload bytes, in read order. Digest ids
      are assumed distinct (rpmsinfoInit derives them per entry). */
  lemma RangeDigests(pkg: Package, flags: VsFlags, check: Checker, cb: Callback)
    requires Completes(pkg)
    requires DistinctIds(AllEntries(pkg))
    ensures var v := VerifyPackage(pkg, flags, check, cb);
      var hdr := pkg.headerBytes.value;
      var pay := PayloadBytes(pkg.payload);
      forall rep :: rep in v.reports ==>
        && (rep.phase == RangeHeader ==> rep.digest == Some(hdr))
        && (rep.phase == RangePayload ==> rep.digest == Some(pay))
        && (rep.phase == RangeBoth && rep.entry in pkg.sigHeader.value ==> rep.digest == Some(hdr + pay))
        && (rep.phase == RangeBoth && rep.entry !in pkg.sigHeader.value ==> rep.digest == Some(pay))
  {
    var sigh := pkg.sigHeader.value;
    var all := AllEntries(pkg);
    var hdr := pkg.headerBytes.value;
    var fd2 := Feed(InitDigests(map[], sigh, RangeHeader, flags), hdr);
    var p1 := VerifyItems(fd2, sigh, RangeHeader, flags, check, cb);
    var fd5 := ReadFile(InitDigests(p1.fd, all, RangePayload, flags), pkg.payload).fd;
    var p2 := VerifyItems(fd5, all, RangePayload, flags, check, cb);
    var p3 := VerifyItems(p2.fd, all, RangeBoth, flags, check, cb);
    CompleteReports(pkg, flags, check, cb);
    DistinctPrefix(sigh, pkg.copiedTags.value);
    assert forall x :: x in sigh ==> x in all;
    HeaderPhaseDigests(sigh, hdr, flags, check, cb);
    HeaderPhaseLeaves(sigh, hdr, flags, check, cb);
    PayloadPhaseDigests(p1.fd, sigh, all, pkg.payload, flags, check, cb);
    CombinedPhaseDigests(p1.fd, sigh, all, hdr, pkg.payload, flags, check, cb);
    CopiedCombinedDigests(p1.fd, sigh, all, pkg.payload, flags, check, cb);
    var pay := PayloadBytes(pkg.payload);
    forall rep | rep in p1.reports + p2.reports + p3.reports
      ensures && (rep.phase == RangeHeader ==> rep.digest == Some(hdr))
              && (rep.phase == RangePayload ==> rep.digest == Some(pay))
              && (rep.phase == RangeBoth && rep.entry in sigh ==> rep.digest == Some(hdr + pay))
              && (rep.phase == RangeBoth && rep.entry !in sigh ==> rep.digest == Some(pay))
    {
      if rep in p1.reports {
        assert rep.phase == RangeHeader && rep.digest == Some(hdr);
      } else if rep in p2.reports {
        assert rep.phase == RangePayload && rep.digest == Some(pay);
      } else {
        assert rep in p3.reports && rep.phase == RangeBoth;
      }
    }
  }

  // ------------------------------------------------- streams stay coherent

  lemma {:induction false} InitDigestsKeepsCoherent(fd: Stream, items: seq<SigEntry>, phase: RangeBits,
                                                    flags: VsFlags, seen: seq<byte>)
    requires Coherent(fd, seen)
    ensures Coherent(InitDigests(fd, items, phase, flags), seen)
    decreases |items|
  {
    if |items| > 0 {
      var e := items[0];
      var fd1 := if Attaches(e, phase, flags) then Attach(fd, e.info.id) else fd;
      if Attaches(e, phase, flags) {
        AttachKeepsCoherent(fd, seen, e.info.id);
      }
      InitDigestsKeepsCoherent(fd1, items[1..], phase, flags, seen);
    }
  }

  lemma {:induction false} VerifyItemsKeepsCoherent(fd: Stream, items: seq<SigEntry>, phase: RangeBits,
                                                    flags: VsFlags, check: Checker, cb: Callback, seen: seq<byte>)
    requires Coherent(fd, seen)
    ensures Coherent(VerifyItems(fd, items, phase, flags, check, cb).fd, seen)
    decreases |items|
  {
    if |items| > 0 {
      var e := items[0];
      if !Disabled(e.info, flags) && e.info.range == phase && e.initRc == Ok {
        DetachKeepsCoherent(fd, seen, e.info.id);
        VerifyItemsKeepsCoherent(Detach(fd, e.info.id), items[1..], phase, flags, check, cb, seen);
      } else {
        VerifyItemsKeepsCoherent(fd, items[1..], phase, flags, check, cb, seen);
      }
    }
  }

  /** Whatever the ids, a digest a checker receives is what an accumulator
      attached at the start of the phase holds. */
  lemma {:induction false} VerifyItemsDigestsSeen(fd: Stream, items: seq<SigEntry>, phase: RangeBits,
                                                  flags: VsFlags, check: Checker, cb: Callback)
    ensures forall rep :: rep in VerifyItems(fd, items, phase, flags, check, cb).reports && rep.digest.Some? ==>
      rep.entry.info.id in fd && rep.digest.value == fd[rep.entry.info.id]
    decreases |items|
  {
    if |items| > 0 {
      var e := items[0];
      if !Disabled(e.info, flags) && e.info.range == phase && e.initRc == Ok {
        var fd' := Detach(fd, e.info.id);
        VerifyItemsDigestsSeen(fd', items[1..], phase, flags, check, cb);
        var r := VerifyItems(fd, items, phase, flags, check, cb);
        var rest := VerifyItems(fd', items[1..], phase, flags, check, cb);
        assert r.reports == [CheckItem(fd, e, phase, check, cb)] + rest.reports;
      } else {
        VerifyItemsDigestsSeen(fd, items[1..], phase, flags, check, cb);
      }
    }
  }

  /** Whatever the digest ids, every digest a checker is handed holds only
      bytes read while its accumulator was attached: a suffix of the header
      in the header phase, and of the header followed by the payload after
      that. The stream starts empty and every attach, read and finish keeps
      its accumulators coherent with what was read. */
  lemma DigestsAreSuffixesOfWhatWasRead(pkg: Package, flags: VsFlags, check: Checker, cb: Callback)
    requires Completes(pkg)
    ensures var v := VerifyPackage(pkg, flags, check, cb);
      var hdr := pkg.headerBytes.value;
      var pay := PayloadBytes(pkg.payload);
      forall rep :: rep in v.reports && rep.digest.Some? ==>
        && (rep.phase == RangeHeader ==> IsSuffix(rep.digest.value, hdr))
        && (rep.phase != RangeHeader ==> IsSuffix(rep.digest.value, hdr + pay))
  {
    var sigh := pkg.sigHeader.value;
    var all := AllEntries(pkg);
    var hdr := pkg.headerBytes.value;
    var pay := PayloadBytes(pkg.payload);
    var fd1 := InitDigests(map[], sigh, RangeHeader, flags);
    InitDigestsKeepsCoherent(map[], sigh, RangeHeader, flags, []);
    FeedKeepsCoherent(fd1, [], hdr);
    assert [] + hdr == hdr;
    var fd2 := Feed(fd1, hdr);
    var p1 := VerifyItems(fd2, sigh, RangeHeader, flags, check, cb);
    VerifyItemsDigestsSeen(fd2, sigh, RangeHeader, flags, check, cb);
    VerifyItemsKeepsCoherent(fd2, sigh, RangeHeader, flags, check, cb, hdr);
    var fd4 := InitDigests(p1.fd, all, RangePayload, flags);
    InitDigestsKeepsCoherent(p1.fd, all, RangePayload, flags, hdr);
    var fd5 := ReadFile(fd4, pkg.payload).fd;
    FeedKeepsCoherent(fd4, hdr, pay);
    var p2 := VerifyItems(fd5, all, RangePayload, flags, check, cb);
    VerifyItemsDigestsSeen(fd5, all, RangePayload, flags, check, cb);
    VerifyItemsKeepsCoherent(fd5, all, RangePayload, flags, check, cb, hdr + pay);
    var p3 := VerifyItems(p2.fd, all, RangeBoth, flags, check, cb);
    VerifyItemsDigestsSeen(p2.fd, all, RangeBoth, flags, check, cb);
    CompleteReports(pkg, flags, check, cb);
    forall rep | rep in p1.reports + p2.reports + p3.reports && rep.digest.Some?
      ensures && (rep.phase == RangeHeader ==> IsSuffix(rep.digest.value, hdr))
              && (rep.phase != RangeHeader ==> IsSuffix(rep.digest.value, hdr + pay))
    {
      if rep in p1.reports {
        assert rep.phase == RangeHeader;
      } else if rep in p2.reports {
        assert rep.phase == RangePayload;
      } else {
        assert rep in p3.reports && rep.phase == RangeBoth;
      }
    }
  }

  /** The reports of a complete package are those of its three phases, in order. */
  lemma CompleteReports(pkg: Package, flags: VsFlags, check: Checker, cb: Callback)
    requires Completes(pkg)
    ensures var sigh := pkg.sigHeader.value;
      var all := AllEntries(pkg);
      var p1 := VerifyItems(Feed(InitDigests(map[], sigh, RangeHeader, flags), pkg.headerBytes.value),
                            sigh, RangeHeader, flags, check, cb);
      var p2 := VerifyItems(ReadFile(InitDigests(p1.fd, all, RangePayload, flags), pkg.payload).fd,
                            all, RangePayload, flags, check, cb);
      var p3 := VerifyItems(p2.fd, all, RangeBoth, flags, check, cb);
      VerifyPackage(pkg, flags, check, cb).reports == p1.reports + p2.reports + p3.reports
  {
  }

  /** A package whose signature header has no entries verifies (vacuous success). */
  lemma NoEntriesVerifies(pkg: Package, flags: VsFlags, check: Checker, cb: Callback)
    requires Completes(pkg)
    requires pkg.sigHeader.value == [] && pkg.copiedTags.value == []
    ensures VerifyPackage(pkg, flags, check, cb).rc == Ok
  {
  }

  /** Flags that disable every entry make any complete package verify,
      whatever the checker would have said about its bytes. */
  lemma AllDisabledVerifies(pkg: Package, flags: VsFlags, check: Checker, cb: Callback)
    requires Completes(pkg)
    requires forall e :: e in AllEntries(pkg) ==> Disabled(e.info, flags)
    ensures VerifyPackage(pkg, flags, check, cb).rc == Ok
  {
  }

  /** A callback that gives back the raw result (both formatters do) leaves
      the package verdict as it would be with no callback at all. */
  lemma PassThroughVerdict(pkg: Package, flags: VsFlags, check: Checker, cb: Callback)
    requires PassesThrough(cb)
    ensures VerifyPackage(pkg, flags, check, cb).rc == VerifyPackage(pkg, flags, check, NoCallback).rc
  {
    if Completes(pkg) {
      var sigh := pkg.sigHeader.value;
      var all := AllEntries(pkg);
      var fd2 := Feed(InitDigests(map[], sigh, RangeHeader, flags), pkg.headerBytes.value);
      PassThroughPhase(fd2, sigh, RangeHeader, flags, check, cb);
      var p1 := VerifyItems(fd2, sigh, RangeHeader, flags, check, cb);
      var rf := ReadFile(InitDigests(p1.fd, all, RangePayload, flags), pkg.payload);
      PassThroughPhase(rf.fd, all, RangePayload, flags, check, cb);
      var p2 := VerifyItems(rf.fd, all, RangePayload, flags, check, cb);
      PassThroughPhase(p2.fd, all, RangeBoth, flags, check, cb);
    }
  }
}

=== FILE: types.dfy ===
/** Shared vocabulary of the signature checker: return codes, verify flags,
    signature tags, the per-entry signature item and the reporting callback. */
module RpmTypes {

  datatype Option<+T> = None | Some(value: T)

  newtype byte = x: int | 0 <= x < 256

  /** rpmRC, in declaration order (RPMRC_OK is 0). */
  datatype RC = Ok | NotFound | Fail | NotTrusted | NoKey

  /** The integer an rpmRC converts to. */
  function Code(rc: RC): (n: int)
    ensures n == 0 <==> rc == Ok
    ensures 0 <= n <= 4
    ensures rc == Fail ==> n == 2
  {
    match rc
    case Ok => 0
    case NotFound => 1
    case Fail => 2
    case NotTrusted => 3
    case NoKey => 4
  }

  /** rpmVSFlags bit mask. */
  type VsFlags = bv32

  const VsfNeedPayload: VsFlags := 1 << 1
  const VsfNoSha1Header: VsFlags := 1 << 8
  const VsfNoSha256Header: VsFlags := 1 << 9
  const VsfNoDsaHeader: VsFlags := 1 << 10
  const VsfNoRsaHeader: VsFlags := 1 << 11
  const VsfNoPayload: VsFlags := 1 << 16
  const VsfNoMd5: VsFlags := 1 << 17
  const VsfNoDsa: VsFlags := 1 << 18
  const VsfNoRsa: VsFlags := 1 << 19

  /** _RPMVSF_NODIGESTS and _RPMVSF_NOSIGNATURES. */
  const VsfNoDigests: VsFlags := VsfNoSha1Header | VsfNoSha256Header | VsfNoPayload | VsfNoMd5
  const VsfNoSignatures: VsFlags := VsfNoDsaHeader | VsfNoRsaHeader | VsfNoDsa | VsfNoRsa

  /** Coverage range bits of a signature item (RPMSIG_HEADER, RPMSIG_PAYLOAD). */
  type RangeBits = bv32

  const RangeHeader: RangeBits := 1
  const RangePayload: RangeBits := 2
  const RangeBoth: RangeBits := RangeHeader | RangePayload

  /** Signature tags the summary formatter knows by name. */
  const TagSize := 1000
  const TagPgp := 1002
  const TagMd5 := 1004
  const TagGpg := 1005
  const TagPgp5 := 1006
  const TagDsa := 267
  const TagRsa := 268
  const TagSha1 := 269
  const TagSha256 := 273
  const TagPayloadDigest := 5092

  /** The fields of struct rpmsinfo_s the checker reads: tag, digest stream
      id, hash algorithm (0 = none), disabler bits and coverage range. */
  datatype SigInfo = SigInfo(tag: int, id: int, hashalgo: int, disabler: VsFlags, range: RangeBits)

  /** One signature-header entry as rpmsinfoInit sees it: the code it
      returned and the item it filled in (possibly only partly on failure). */
  datatype SigEntry = SigEntry(initRc: RC, info: SigInfo)

  /** What a reporting callback returns: the effective result and the text it logs. */
  datatype Formatted = Formatted(rc: RC, text: string)

  /** rpmsinfoCb: an optional callback given the item, the raw result and the result text. */
  datatype Callback = NoCallback | Callback(f: (SigInfo, RC, string) -> Formatted)

  /** The effective result of an item: the callback's answer when there is one. */
  function Effective(cb: Callback, info: SigInfo, raw: RC, text: string): (e: RC)
    ensures PassesThrough(cb) ==> e == raw
    ensures cb.Callback? ==> e == cb.f(info, raw, text).rc
  {
    match cb
    case NoCallback => raw
    case Callback(f) => f(info, raw, text).rc
  }

  /** The callback gives back the raw result whatever it is shown. */
  ghost predicate PassesThrough(cb: Callback)
  {
    cb.Callback? ==> forall i, rc, t :: cb.f(i, rc, t).rc == rc
  }
}
